=== FILE: README.md ===
# Dimension catalogs and run-lengths, in Dafny

A model of the two algorithms under the metadata layer of `arrow-product-type`,
a store of values that vary along named dimensions.

- **Run-lengths** (`compute_run_lengths`, src/flags.rs). The inputs are a flag per
  dimension ("this dimension varies") and a size per dimension. The output is,
  for each dimension, the number of buffer slots to skip to move one step along
  it: row-major strides over the active dimensions, with 0 for a collapsed one.
  Module `RunLengths` holds three things:
  - the function `ComputeRunLengths`, the source's two passes;
  - the method `ComputeRunLengthsLoop`, the same two passes as loops;
  - an independent reference, `Strides`. Each active position's stride is the
    product of the sizes of the later active positions.

  Both the function and the loop are proved equal to the reference.
  `BitVec` is `seq<bool>`. `zip` stops at the shorter input (`Width`). An active
  size of 0 divides by zero, so the source panics, and the model returns `None`
  exactly then.
- **Catalog merge** (`combine_dimensions`, src/temp.rs). A catalog
  (`PossibleDimensions`) is an insertion-ordered map from a dimension's name to
  its values (`DimensionValues`).
  - Module `Dimensions` models the map as a sequence of entries with no name
    twice. `Insert` is `IndexMap::insert`: a known name keeps its position and
    gets the new values, and a new name is appended.
  - `LexOrder` defines Rust's `<=` on `String` and proves it agrees with the
    textbook lexicographic order and is a total order.
  - `CombineDimensions` models the merge. It walks both catalogs once, ordered by
    "fewer values first, then the smaller name". It takes a shared entry once.
    Where the source panics on a name with two different value lists, it
    returns `Failure(Conflict(name))`.
  - `CombineProperties` holds the source's test, the cases of the loop, and what
    the merge loses.
  - `CanonicalMerge` covers catalogs already in catalog order. It proves that the
    corrected merge is their sorted union and commutes, and that the source's
    merge yields a prefix of that union.
  - `CheckedMerge` adds the conflict check that the source's merge misses.

Three behaviours of the code are not what one would expect of a merge and a
stride computation. The model follows the code in each:
- When the right catalog runs out first, the current left entry is inserted, but
  every left entry after it is dropped. When the left catalog runs out first,
  every remaining right entry is inserted.
- The merge is not commutative: swapping the catalogs can change the result.
- An active size of 0 panics at the first division by it. No later position is
  computed.

## Model

| member | source | states |
|---|---|---|
| RunLengths.Product | src/flags.rs:27 | The product of the sizes, which the first loop computes. It is 0 exactly when some size is 0. |
| RunLengths.EffectiveSizes | src/flags.rs:21-25 | One effective size per zipped position, so the count stops at the shorter of the two inputs. |
| RunLengths.ZeroTotalIsPanic | src/flags.rs:27-33 | The total the walk starts from is 0 exactly when some active size is 0, which is exactly when the division at line 33 panics. |
| RunLengths.Walk | src/flags.rs:29-39 | The pass over the zipped flags and sizes gives one entry per position, 0 at every collapsed position. It fails exactly when some active position has size 0, where the division panics. |
| RunLengths.ComputeRunLengths | src/flags.rs:20-41 | One run-length per position that both inputs cover (`zip` truncates). 0 at every collapsed position. Fails exactly when an active position in range has size 0. |
| RunLengths.RunLengthsAreStrides | src/flags.rs:21-39 | If every active size is at least 1, the result equals the independent row-major stride reference: the product of the sizes of the later active positions, 0 where collapsed. |
| RunLengths.WalkFromTotal | src/flags.rs:27-39 | Starting from the product of the effective sizes, each active position gets the product of the effective sizes after it. Dividing down never loses anything. |
| RunLengths.EffectiveProduct | src/flags.rs:21-27 | The product of the effective sizes from any position on equals the product of the active sizes from there: a collapsed size counts as 1. |
| RunLengths.SkipCollapsed | src/flags.rs:24 | A run of collapsed positions contributes nothing to the product of the active sizes. |
| RunLengths.NoActiveDimensions | src/flags.rs:24-37 | With no active position the result is all zeros, one per position, and never fails. |
| RunLengths.EmptyInputs | src/flags.rs:27-40 | Empty inputs give an empty result. The product of no sizes is 1. |
| RunLengths.LastActiveIsOne | src/flags.rs:31-35 | The last active position has run-length 1. |
| RunLengths.ConsecutiveActive | src/flags.rs:31-35 | For active positions j < k with only collapsed ones between, `run[j] == run[k] * sizes[k]`: `current_size` shrinks by exactly each active size. |
| RunLengths.SingleActive | src/flags.rs:20-41 | With exactly one active position, the result is 1 there and 0 everywhere else. |
| RunLengths.TwoActive | src/flags.rs:20-41 | With exactly two active positions, the first gets the size of the second and the second gets 1. |
| RunLengths.CollapsedSizesIgnored | src/flags.rs:24 | Sizes at collapsed positions never change the result, not even a 0. |
| RunLengths.OneDimensionalCases | src/flags.rs:56-72 | The three one-hot cases of `test_1d_run_lengths` on sizes [3, 2, 3] give [1,0,0], [0,1,0] and [0,0,1]. [true,false,true] on [3,2,4] gives [4,0,1]. |
| RunLengths.ComputeRunLengthsLoop | src/flags.rs:20-41 | The two loops, accumulating the product and then dividing it down, give `None` exactly when an active size in range is 0. Otherwise they give the stride reference. |
| RunLengths.MultiplyAll | src/flags.rs:27 | The first loop multiplies the effective sizes together and gives 1 for none, as `reduce(...).unwrap_or(1)` does. |
| LexOrder.LexLeMeansSpec | src/temp.rs:64 | The character-by-character `<=` on names holds exactly when one name is a prefix of the other or the first difference favours the left. |
| LexOrder.LexLeReflexive | src/temp.rs:64 | Every name is `<=` itself. |
| LexOrder.LexLeAntisymmetric | src/temp.rs:64 | Names `<=` each other both ways are equal. |
| LexOrder.LexLeTransitive | src/temp.rs:64 | `<=` on names is transitive. |
| LexOrder.LexLeTotal | src/temp.rs:64 | Any two names are comparable. |
| LexOrder.LexLessTrichotomy | src/temp.rs:64 | Exactly one of `a < b`, `a == b`, `b < a` holds. |
| LexOrder.LexLessTransitive | src/temp.rs:64 | `<` on names is transitive. |
| Dimensions.IndexOf | src/temp.rs:10 | The map's lookup: the position of the first entry with the name, absent exactly when no entry has it. |
| Dimensions.Insert | src/temp.rs:14-17 | `add_dimension` / `IndexMap::insert`. A new name is appended. A known name keeps its place, so the names are unchanged. No name is ever duplicated. The result holds the new entry and otherwise only old entries. |
| Dimensions.InsertReplaces | src/temp.rs:15 | Inserting a name already present replaces that entry in place. |
| Dimensions.InsertKeepsNames | src/temp.rs:15 | An insertion keeps every name and adds the inserted one. |
| Dimensions.GetInserted | src/temp.rs:14-17 | After an insertion, the inserted name looks up to the new values. |
| Dimensions.GetOther | src/temp.rs:14-17 | After an insertion, every other name looks up as before. |
| Dimensions.InsertAll | src/temp.rs:41-43 | Inserting entries one after another keeps names unique, keeps every earlier name, adds every inserted name and invents no entry. |
| Dimensions.InsertAllRebuilds | src/temp.rs:41-43 | Inserting a catalog's entries, in order, after any prefix of them gives the catalog back. |
| Dimensions.InsertAllFresh | src/temp.rs:41-43 | Inserting entries with new, pairwise distinct names appends them in order. |
| CombineDimensions.Decide | src/temp.rs:53-78 | Both heads: a clash exactly when the names are equal and the values differ, taking both exactly when the entries are equal. Otherwise the side whose head comes first by (number of values, name) is taken. |
| CombineDimensions.Turn | src/temp.rs:53-78 | A turn that does not clash inserts the taken head and advances exactly the side(s) it came from, in both the as-written and the corrected loop. |
| CombineDimensions.MergeFrom | src/temp.rs:29-81 | The loop as written, from any state. A successful result has unique names when what was built so far had. A failure happens only while both sides still have unread entries. |
| CombineDimensions.MergeCorrectedFrom | src/temp.rs:29-81 | The same loop with the exhausted-right arm inserting every remaining left entry. A successful result has unique names when what was built so far had. A failure happens only while both sides still have unread entries. |
| CombineDimensions.MergeSound | src/temp.rs:29-81 | From any state, a result of either loop holds only built, left or right entries. A failure names a dimension the two sides bind to different values. |
| CombineDimensions.MergeKeepsNames | src/temp.rs:37-51 | Either loop keeps every name already built and every name still to be read on the right. The corrected loop also keeps every name still to be read on the left. |
| CombineDimensions.Combine | src/temp.rs:20-84 | `combine_dimensions` as written: the loop from the start with an empty output, and a panic as `Failure(Conflict(name))`. A conflict needs entries on both sides; an empty side never conflicts. Its other guarantees are stated in `CombineGuarantees`. |
| CombineDimensions.CombineCorrected | src/temp.rs:46-51 | The merge with the exhausted-right arm fixed so that no left entry is lost. An empty side never conflicts. Its other guarantees are stated in `CombineCorrectedGuarantees`. |
| CombineDimensions.CombineGuarantees | src/temp.rs:20-84 | `combine_dimensions` as written (`Combine`). A success has unique names, holds only input entries, and has every right name. A failure names a real disagreement between the sides. |
| CombineDimensions.CombineCorrectedGuarantees | src/temp.rs:46-51 | The merge with the exhausted-right arm fixed (`CombineCorrected`). The same guarantees as the source's merge, plus every left name survives. |
| CombineProperties.MergeWithItselfFrom | src/temp.rs:53-58 | Merging a catalog with itself from any common position rebuilds it: every turn takes both heads. |
| CombineProperties.CombineWithItself | src/temp.rs:53-58 | Merging a catalog with an identical copy gives it back, with no conflict. |
| CombineProperties.SameSingleDimension | src/temp.rs:90-101 | `test_same_single_dimension`: a one-entry catalog merged with its copy has length 1 and equals the original. |
| CombineProperties.ConflictExample | src/temp.rs:54-61 | The same name with different values fails with that name, and there is no partial result. |
| CombineProperties.CardinalityFirstExample | src/temp.rs:71-77 | The entry with fewer values is emitted first, although it is on the right. |
| CombineProperties.SharedThenTailExample | src/temp.rs:37-58 | `{A}` merged with `{A, B}` gives exactly one `A` followed by `B`. |
| CombineProperties.CombineEmptyLeft | src/temp.rs:39-44 | With an empty left catalog the result is the right catalog. |
| CombineProperties.CombineEmptyRight | src/temp.rs:46-51 | With an empty right catalog only the first left entry survives. |
| CombineProperties.LeftExhaustedAppendsRest | src/temp.rs:39-44 | Once the left side is exhausted, the current right head and all later right entries are appended in order, provided their names are new to the output. |
| CombineProperties.RightExhaustedEmitsHeadOnly | src/temp.rs:46-51 | Once the right side is exhausted, only the current left head is inserted: it is appended when its name is new to the output and replaces the entry of that name in place otherwise. No later left entry with a name new to the output appears. |
| CombineProperties.LeftTailDroppedExample | src/temp.rs:46-51 | `[a, c, d]` merged with `[b]` gives `[a, b, c]`: `d` is lost. |
| CombineProperties.LeftTailKeptExample | src/temp.rs:46-51 | The corrected merge of the same catalogs gives `[a, b, c, d]`. |
| CombineProperties.AsWrittenNotCommutative | src/temp.rs:20-84 | `[b]` merged with `[a, c, d]` keeps all four entries, so swapping the arguments changes the result. |
| CombineProperties.CorrectedExtendsFrom | src/temp.rs:29-81 | From any state the two loops fail alike. On success the corrected result is the as-written one with a suffix of the left side inserted into it. An inserted entry whose name is already present replaces that entry in place; only new names are appended. |
| CombineProperties.CorrectedExtendsAsWritten | src/temp.rs:46-51 | The corrected merge fails exactly when the source's does, with the same conflict. Otherwise it is the source's result with the lost left suffix inserted into it. An entry whose name is already present is replaced in place, so the lost entries are not simply appended. |
| CanonicalMerge.SortedSameEntries | src/temp.rs:20-84 | Two catalogs strictly sorted by (number of values, name) with the same entries are equal. |
| CanonicalMerge.CorrectedIsSortedUnion | src/temp.rs:20-84 | For catalogs in catalog order that agree on shared names, the corrected merge succeeds and gives their union in catalog order: sorted, with every entry of both and nothing else. |
| CanonicalMerge.AsWrittenIsSortedPrefix | src/temp.rs:20-84 | On the same inputs the source's merge never fails and gives a sorted prefix of that union. |
| CanonicalMerge.CorrectedCommutes | src/temp.rs:20-84 | On the same inputs the corrected merge does not depend on argument order. |
| CheckedMerge.ClashesWith | src/temp.rs:54-61 | True exactly when some right entry has the given name with other values. |
| CheckedMerge.FindConflict | src/temp.rs:54-61 | Finds a name bound to different values on the two sides, and finds none exactly when the catalogs agree on every shared name. |
| CheckedMerge.CombineChecked | src/temp.rs:54-61 | The merge with every shared name checked before merging, so that a conflict is found even when the two definitions never meet as heads. An empty side never conflicts. Its full contract is stated in `CheckedFailsOnConflict` and `CheckedIsSortedUnion`. |
| CheckedMerge.CheckedFailsOnConflict | src/temp.rs:54-61 | The checked merge fails exactly when some name is bound to different values on the two sides, and then names such a name. |
| CheckedMerge.CheckedIsSortedUnion | src/temp.rs:20-84 | On catalogs in catalog order that agree on shared names, the checked merge gives their sorted union. |
| CheckedMerge.UndetectedConflictExample | src/temp.rs:54-77 | `[x:[a]]` and `[y:[a], x:[a,b]]` are in catalog order and disagree on `x`. Both the source's merge and the corrected merge succeed with `[x:[a,b], y:[a]]`. |
| CheckedMerge.DroppedConflictExample | src/temp.rs:46-77 | With the sides swapped, `[y:[a], x:[a,b]]` merged with `[x:[a]]` also succeeds: the result is `[x:[a], y:[a]]`, and the left `x:[a,b]` is lost with the dropped left tail. |
| CheckedMerge.CheckedConflictExample | src/temp.rs:54-61 | The checked merge reports the same catalogs as a conflict on `x`. |

## Left out

- The `Flags` struct (src/flags.rs:3-8) and the test helper `create_bitvec`: storage only. `BitVec` is `seq<bool>`.
- Overflow of the `usize` product of the sizes: sizes are unbounded naturals.
- `IndexMap`'s hashing and constant-time index: the map is the sequence of its entries.
- The panic machinery: a panic is a failure value (`None` for run-lengths, `Failure(Conflict(name))` for the merge).
- The string formatting of the panic message: only the dimension's name is kept.
- src/data.rs: a constructor over an Arrow array of floating-point values, with no logic of its own.
- src/metadata/mod.rs: a struct declaration and module wiring, with no behaviour.
- Rust compares `String`s by their UTF-8 bytes. `LexOrder` compares code points, which gives the same order on valid UTF-8.
- Commutativity of the source's merge: it does not hold (`CombineProperties.AsWrittenNotCommutative`). It is proved for the corrected merge on canonical, compatible catalogs only.
- CombineDimensions.CombineGuarantees: does not state that every left name survives, because the source's merge can drop left entries.
- RunLengths.EffectiveSizes: the contract states only the length. The mapping itself is stated through the products, in `EffectiveProduct`, `ZeroTotalIsPanic` and `CollapsedSizesIgnored`, because a per-position contract on this function makes every proof that uses it much more expensive.
- CanonicalMerge.CorrectedIsSortedUnion: assumes that both catalogs are in catalog order and agree on shared names. The merge relies on the first, and `CheckedMerge` covers the second.

## Findings

| source | as written | input that shows it | evidently intended | confidence | as-written member | corrected member |
|---|---|---|---|---|---|---|
| src/temp.rs:46-51 | When the right side is exhausted, the arm inserts the current left entry and then iterates `rhs_iter`, which is already empty. | `[a, c, d]` merged with `[b]`, all one-value dimensions: the result is `[a, b, c]`. | Iterate `lhs_iter`, so every remaining left entry is inserted: `[a, b, c, d]`. | not executed | CombineProperties.LeftTailDroppedExample | CanonicalMerge.CorrectedIsSortedUnion |
| src/temp.rs:54-77 | A conflict is detected only when the two definitions of a name are the current heads at the same turn. Catalog order places a name by its number of values, so two definitions with different numbers of values need not meet. When an entry that sorts between them is taken first, the conflict goes undetected. The second definition then either replaces the first in place or is lost with the dropped left tail. | `[x:[a]]` merged with `[y:[a], x:[a,b]]`: the result is `[x:[a,b], y:[a]]` with no conflict. The swapped merge gives `[x:[a], y:[a]]`. | Any name bound to different values on the two sides is a conflict. | not executed | CheckedMerge.UndetectedConflictExample | CheckedMerge.CheckedFailsOnConflict |

=== FILE: canonical_merge.dfy ===
/**
 Catalogs kept in catalog order ("fewer values first, then the smaller
 name"), which is what the merge of src/temp.rs assumes of its inputs. For two
 such catalogs that agree on every shared name, the corrected merge is their
 sorted union, and the source's merge computes a prefix of it.
 */
module CanonicalMerge {
  import opened Wrappers
  import opened LexOrder
  import opened Dimensions
  import opened CombineDimensions

  /** Strictly increasing in catalog order. */
  ghost predicate Sorted(c: PossibleDimensions)
  {
    forall p, q :: 0 <= p < q < |c| ==> KeyBefore(c[p], c[q])
  }

  /** A catalog as the merge expects it: in catalog order, no name twice. */
  ghost predicate Canonical(c: PossibleDimensions)
  {
    Sorted(c) && UniqueNames(c)
  }

  /** Every name the two catalogs share is bound to the same values on both sides. */
  ghost predicate Compatible(lhs: PossibleDimensions, rhs: PossibleDimensions)
  {
    forall p, q :: 0 <= p < |lhs| && 0 <= q < |rhs| && lhs[p].name == rhs[q].name ==> lhs[p] == rhs[q]
  }

  lemma KeyBeforeTransitive(a: Dimension, b: Dimension, c: Dimension)
    requires KeyBefore(a, b) && KeyBefore(b, c)
    ensures KeyBefore(a, c)
  {
    if a.values.Len() == b.values.Len() == c.values.Len() {
      LexLessTransitive(a.name, b.name, c.name);
    }
  }

  /** The catalog order is a strict order: no entry comes before itself, and no two come before each other. */
  lemma KeyBeforeStrict(a: Dimension, b: Dimension)
    ensures !KeyBefore(a, a)
    ensures !(KeyBefore(a, b) && KeyBefore(b, a))
  {
    LexLessTrichotomy(a.name, b.name);
  }

  /** Every entry of a non-empty sorted catalog is its first entry or comes after it. */
  lemma SortedHeadIsLeast(c: PossibleDimensions, x: Dimension)
    requires Sorted(c) && x in c
    ensures x == c[0] || KeyBefore(c[0], x)
  {
    var k :| 0 <= k < |c| && c[k] == x;
  }

  /** Two sorted catalogs with the same entries are equal. */
  lemma {:induction false} SortedSameEntries(a: PossibleDimensions, b: PossibleDimensions)
    requires Sorted(a) && Sorted(b)
    requires forall k :: 0 <= k < |a| ==> a[k] in b
    requires forall k :: 0 <= k < |b| ==> b[k] in a
    ensures a == b
    decreases |a|
  {
    assert |a| > 0 ==> a[0] in b;
    assert |b| > 0 ==> b[0] in a;
    if |a| > 0 && |b| > 0 {
      SortedHeadIsLeast(b, a[0]);
      SortedHeadIsLeast(a, b[0]);
      KeyBeforeStrict(a[0], b[0]);
      forall k | 0 <= k < |a| - 1
        ensures a[1..][k] in b[1..]
      {
        KeyBeforeStrict(a[0], a[k + 1]);
        var m :| 0 <= m < |b| && b[m] == a[k + 1];
        assert b[1..][m - 1] == a[k + 1];
      }
      forall k | 0 <= k < |b| - 1
        ensures b[1..][k] in a[1..]
      {
        KeyBeforeStrict(b[0], b[k + 1]);
        var m :| 0 <= m < |a| && a[m] == b[k + 1];
        assert a[1..][m - 1] == b[k + 1];
      }
      SortedSameEntries(a[1..], b[1..]);
      SameHeadSameTail(a, b);
    }
  }

  lemma SameHeadSameTail<T>(a: seq<T>, b: seq<T>)
    requires |a| > 0 && |b| > 0 && a[0] == b[0] && a[1..] == b[1..]
    ensures a == b
  {
    assert a == [a[0]] + a[1..];
    assert b == [b[0]] + b[1..];
  }

  /** Concatenating two sorted catalogs, the first wholly before the second, is sorted. */
  lemma SortedConcat(c: PossibleDimensions, ds: PossibleDimensions)
    requires Sorted(c) && Sorted(ds)
    requires forall a, b :: 0 <= a < |c| && 0 <= b < |ds| ==> KeyBefore(c[a], ds[b])
    ensures Sorted(c + ds)
  {
  }

  /**
   The state of the merge loop after it has read `lhs[..i]` and `rhs[..j]`
   and built `acc`: `acc` is sorted, lies wholly before everything still to
   be read, holds only entries already read, and holds all of them.
   */
  ghost predicate Progress(lhs: PossibleDimensions, rhs: PossibleDimensions, i: nat, j: nat, acc: PossibleDimensions)
  {
    && i <= |lhs| && j <= |rhs|
    && Sorted(acc)
    && (forall a, p :: 0 <= a < |acc| && i <= p < |lhs| ==> KeyBefore(acc[a], lhs[p]))
    && (forall a, q :: 0 <= a < |acc| && j <= q < |rhs| ==> KeyBefore(acc[a], rhs[q]))
    && (forall a :: 0 <= a < |acc| ==> acc[a] in lhs[..i] || acc[a] in rhs[..j])
    && (forall p :: 0 <= p < i ==> lhs[p] in acc)
    && (forall q :: 0 <= q < j ==> rhs[q] in acc)
  }

  /** Nothing still to be read shares a name with what has been emitted. */
  lemma UnreadIsFresh(lhs: PossibleDimensions, rhs: PossibleDimensions, i: nat, j: nat, acc: PossibleDimensions)
    requires Canonical(lhs) && Canonical(rhs) && Compatible(lhs, rhs)
    requires Progress(lhs, rhs, i, j, acc)
    ensures forall p :: i <= p < |lhs| ==> lhs[p].name !in Names(acc)
    ensures forall q :: j <= q < |rhs| ==> rhs[q].name !in Names(acc)
  {
    UnreadSideIsFresh(lhs, rhs, i, j, acc);
    assert Compatible(rhs, lhs);
    forall a | 0 <= a < |acc|
      ensures acc[a] in rhs[..j] || acc[a] in lhs[..i]
    {
    }
    UnreadSideIsFresh(rhs, lhs, j, i, acc);
  }

  /**
   One side of `UnreadIsFresh`: an entry of `s` not yet read comes after
   everything emitted, so it is none of them, and it cannot share a name
   with one of them either, since the emitted entries come from `s` itself
   (no name twice) or from `t` (shared names carry equal entries).
   */
  lemma UnreadSideIsFresh(s: PossibleDimensions, t: PossibleDimensions, k: nat, m: nat, acc: PossibleDimensions)
    requires UniqueNames(s) && Compatible(s, t)
    requires k <= |s| && m <= |t|
    requires forall a, p :: 0 <= a < |acc| && k <= p < |s| ==> KeyBefore(acc[a], s[p])
    requires forall a :: 0 <= a < |acc| ==> acc[a] in s[..k] || acc[a] in t[..m]
    ensures forall p :: k <= p < |s| ==> s[p].name !in Names(acc)
  {
    forall a, p | 0 <= a < |acc| && k <= p < |s|
      ensures acc[a].name != s[p].name
    {
      if acc[a] in s[..k] {
        var p' :| 0 <= p' < k && s[..k][p'] == acc[a];
        assert s[p'].name != s[p].name;
      } else {
        var q' :| 0 <= q' < m && t[..m][q'] == acc[a];
        assert acc[a] != s[p];
      }
    }
  }

  /** Emitting an entry that comes before everything still to be read keeps the state. */
  lemma Emit(lhs: PossibleDimensions, rhs: PossibleDimensions, i: nat, j: nat, acc: PossibleDimensions,
             i': nat, j': nat, d: Dimension)
    requires Progress(lhs, rhs, i, j, acc)
    requires i <= i' <= |lhs| && j <= j' <= |rhs|
    requires d in lhs[..i'] || d in rhs[..j']
    requires forall p :: i <= p < i' ==> lhs[p] == d
    requires forall q :: j <= q < j' ==> rhs[q] == d
    requires forall p :: i <= p < |lhs| ==> d == lhs[p] || KeyBefore(d, lhs[p])
    requires forall q :: j <= q < |rhs| ==> d == rhs[q] || KeyBefore(d, rhs[q])
    requires forall p :: i' <= p < |lhs| ==> KeyBefore(d, lhs[p])
    requires forall q :: j' <= q < |rhs| ==> KeyBefore(d, rhs[q])
    requires (i < |lhs| && d == lhs[i]) || (j < |rhs| && d == rhs[j])
    ensures Progress(lhs, rhs, i', j', acc + [d])
  {
    var acc' := acc + [d];
    forall a | 0 <= a < |acc|
      ensures KeyBefore(acc[a], d)
    {
      if i < |lhs| && d == lhs[i] {
      } else {
      }
    }
    SortedConcat(acc, [d]);
    forall a | 0 <= a < |acc'|
      ensures acc'[a] in lhs[..i'] || acc'[a] in rhs[..j']
    {
      if a < |acc| {
        assert acc[a] in lhs[..i] || acc[a] in rhs[..j];
        if acc[a] in lhs[..i] {
          var p :| 0 <= p < i && lhs[..i][p] == acc[a];
          assert lhs[..i'][p] == acc[a];
        } else {
          var q :| 0 <= q < j && rhs[..j][q] == acc[a];
          assert rhs[..j'][q] == acc[a];
        }
      }
    }
  }

  /** Everything after position `k` of a sorted catalog comes after `c[k]`, hence after anything before `c[k]`. */
  lemma BeforeRest(c: PossibleDimensions, k: nat, d: Dimension)
    requires Sorted(c) && k < |c|
    requires d == c[k] || KeyBefore(d, c[k])
    ensures forall p :: k < p < |c| ==> KeyBefore(d, c[p])
  {
    forall p | k < p < |c|
      ensures KeyBefore(d, c[p])
    {
      if d != c[k] {
        KeyBeforeTransitive(d, c[k], c[p]);
      }
    }
  }

  /** What the merge computes from a state reached on canonical, compatible inputs. */
  ghost predicate Outcome(lhs: PossibleDimensions, rhs: PossibleDimensions,
                          w: Result<PossibleDimensions, Conflict>, f: Result<PossibleDimensions, Conflict>)
  {
    && w.Success? && f.Success?
    && Sorted(f.value)
    && (forall k :: 0 <= k < |f.value| ==> f.value[k] in lhs || f.value[k] in rhs)
    && (forall p :: 0 <= p < |lhs| ==> lhs[p] in f.value)
    && (forall q :: 0 <= q < |rhs| ==> rhs[q] in f.value)
    && |w.value| <= |f.value| && w.value == f.value[..|w.value|]
  }

  /** Taking an entry present on both sides keeps the state. */
  lemma KeepBoth(lhs: PossibleDimensions, rhs: PossibleDimensions, i: nat, j: nat, acc: PossibleDimensions)
    requires Sorted(lhs) && Sorted(rhs) && Progress(lhs, rhs, i, j, acc)
    requires i < |lhs| && j < |rhs| && lhs[i] == rhs[j]
    ensures Progress(lhs, rhs, i + 1, j + 1, acc + [lhs[i]])
  {
    var d := lhs[i];
    BeforeRest(lhs, i, d);
    BeforeRest(rhs, j, d);
    assert lhs[..i + 1][i] == d;
    Emit(lhs, rhs, i, j, acc, i + 1, j + 1, d);
  }

  /** Taking the left entry, which comes before the right one, keeps the state. */
  lemma KeepLeft(lhs: PossibleDimensions, rhs: PossibleDimensions, i: nat, j: nat, acc: PossibleDimensions)
    requires Sorted(lhs) && Sorted(rhs) && Progress(lhs, rhs, i, j, acc)
    requires i < |lhs| && j < |rhs| && KeyBefore(lhs[i], rhs[j])
    ensures Progress(lhs, rhs, i + 1, j, acc + [lhs[i]])
  {
    var d := lhs[i];
    BeforeRest(lhs, i, d);
    BeforeRest(rhs, j, d);
    assert lhs[..i + 1][i] == d;
    Emit(lhs, rhs, i, j, acc, i + 1, j, d);
  }

  /** Taking the right entry, which comes before the left one, keeps the state. */
  lemma KeepRight(lhs: PossibleDimensions, rhs: PossibleDimensions, i: nat, j: nat, acc: PossibleDimensions)
    requires Sorted(lhs) && Sorted(rhs) && Progress(lhs, rhs, i, j, acc)
    requires i < |lhs| && j < |rhs| && KeyBefore(rhs[j], lhs[i])
    ensures Progress(lhs, rhs, i, j + 1, acc + [rhs[j]])
  {
    var d := rhs[j];
    BeforeRest(lhs, i, d);
    BeforeRest(rhs, j, d);
    assert rhs[..j + 1][j] == d;
    Emit(lhs, rhs, i, j, acc, i, j + 1, d);
  }

  /**
   One turn of the loop when both sides still have a current entry: on
   canonical, compatible inputs it never clashes, it emits one entry `d`
   and moves past it on one or both sides, and the state is kept.
   */
  lemma Advance(lhs: PossibleDimensions, rhs: PossibleDimensions, i: nat, j: nat, acc: PossibleDimensions)
    returns (i': nat, j': nat, d: Dimension)
    requires Canonical(lhs) && Canonical(rhs) && Compatible(lhs, rhs)
    requires Progress(lhs, rhs, i, j, acc)
    requires i < |lhs| && j < |rhs|
    ensures i <= i' <= i + 1 && j <= j' <= j + 1 && i + j < i' + j'
    ensures Progress(lhs, rhs, i', j', acc + [d])
    ensures MergeFrom(lhs, rhs, i, j, acc) == MergeFrom(lhs, rhs, i', j', acc + [d])
    ensures MergeCorrectedFrom(lhs, rhs, i, j, acc) == MergeCorrectedFrom(lhs, rhs, i', j', acc + [d])
  {
    UnreadIsFresh(lhs, rhs, i, j, acc);
    var l, r := lhs[i], rhs[j];
    assert l.name == r.name ==> l == r;
    i', j', d := Turn(lhs, rhs, i, j, acc);
    assert Insert(acc, d) == acc + [d];
    KeepTurn(lhs, rhs, i, j, acc, i', j', d);
  }

  /** Whichever entry a turn takes, emitting it keeps the state. */
  lemma KeepTurn(lhs: PossibleDimensions, rhs: PossibleDimensions, i: nat, j: nat, acc: PossibleDimensions,
                 i': nat, j': nat, d: Dimension)
    requires Sorted(lhs) && Sorted(rhs) && Progress(lhs, rhs, i, j, acc)
    requires i < |lhs| && j < |rhs| && Decide(lhs[i], rhs[j]) != Clash
    requires Decide(lhs[i], rhs[j]) == TakeBoth ==> i' == i + 1 && j' == j + 1 && d == lhs[i]
    requires Decide(lhs[i], rhs[j]) == TakeLeft ==> i' == i + 1 && j' == j && d == lhs[i]
    requires Decide(lhs[i], rhs[j]) == TakeRight ==> i' == i && j' == j + 1 && d == rhs[j]
    ensures Progress(lhs, rhs, i', j', acc + [d])
  {
    match Decide(lhs[i], rhs[j])
    case TakeBoth => KeepBoth(lhs, rhs, i, j, acc);
    case TakeLeft => KeepLeft(lhs, rhs, i, j, acc);
    case TakeRight => KeepRight(lhs, rhs, i, j, acc);
  }

  lemma {:induction false} CanonicalFrom(lhs: PossibleDimensions, rhs: PossibleDimensions, i: nat, j: nat, acc: PossibleDimensions)
    requires Canonical(lhs) && Canonical(rhs) && Compatible(lhs, rhs)
    requires Progress(lhs, rhs, i, j, acc)
    ensures Outcome(lhs, rhs, MergeFrom(lhs, rhs, i, j, acc), MergeCorrectedFrom(lhs, rhs, i, j, acc))
    decreases |lhs| - i + |rhs| - j
  {
    if i == |lhs| {
      CanonicalLeftExhausted(lhs, rhs, j, acc);
    } else if j == |rhs| {
      CanonicalRightExhausted(lhs, rhs, i, acc);
    } else {
      var i', j', d := Advance(lhs, rhs, i, j, acc);
      CanonicalFrom(lhs, rhs, i', j', acc + [d]);
    }
  }

  lemma CanonicalLeftExhausted(lhs: PossibleDimensions, rhs: PossibleDimensions, j: nat, acc: PossibleDimensions)
    requires Canonical(lhs) && Canonical(rhs) && Compatible(lhs, rhs)
    requires Progress(lhs, rhs, |lhs|, j, acc)
    ensures Outcome(lhs, rhs, MergeFrom(lhs, rhs, |lhs|, j, acc), MergeCorrectedFrom(lhs, rhs, |lhs|, j, acc))
  {
    UnreadIsFresh(lhs, rhs, |lhs|, j, acc);
    LeftExhaustedResults(lhs, rhs, j, acc);
    LeftExhaustedOutcome(lhs, rhs, j, acc);
  }

  /** With the left side exhausted and the right entries fresh, both merges append them. */
  lemma LeftExhaustedResults(lhs: PossibleDimensions, rhs: PossibleDimensions, j: nat, acc: PossibleDimensions)
    requires UniqueNames(rhs) && j <= |rhs|
    requires forall q :: j <= q < |rhs| ==> rhs[q].name !in Names(acc)
    ensures MergeFrom(lhs, rhs, |lhs|, j, acc) == Success(acc + rhs[j..])
    ensures MergeCorrectedFrom(lhs, rhs, |lhs|, j, acc) == Success(acc + rhs[j..])
  {
    var rest := rhs[j..];
    forall k | 0 <= k < |rest|
      ensures rest[k].name !in Names(acc)
    {
      assert rest[k] == rhs[j + k];
    }
    InsertAllFresh(acc, rest);
    if j == |rhs| {
      assert acc + rest == acc;
    }
  }

  /** Appending the unread right entries to the state gives a sorted union, computed alike by both merges. */
  lemma LeftExhaustedOutcome(lhs: PossibleDimensions, rhs: PossibleDimensions, j: nat, acc: PossibleDimensions)
    requires Sorted(rhs)
    requires Progress(lhs, rhs, |lhs|, j, acc)
    ensures Outcome(lhs, rhs, Success(acc + rhs[j..]), Success(acc + rhs[j..]))
  {
    var rest := rhs[j..];
    var out := acc + rest;
    SortedConcat(acc, rest);
    forall k | 0 <= k < |out|
      ensures out[k] in lhs || out[k] in rhs
    {
      if k < |acc| {
        assert acc[k] in lhs[..|lhs|] || acc[k] in rhs[..j];
      } else {
        assert out[k] == rhs[j + k - |acc|];
      }
    }
    forall q | 0 <= q < |rhs|
      ensures rhs[q] in out
    {
      if q >= j {
        assert out[|acc| + q - j] == rhs[q];
      }
    }
    assert out[..|out|] == out;
  }

  lemma CanonicalRightExhausted(lhs: PossibleDimensions, rhs: PossibleDimensions, i: nat, acc: PossibleDimensions)
    requires Canonical(lhs) && Canonical(rhs) && Compatible(lhs, rhs)
    requires Progress(lhs, rhs, i, |rhs|, acc)
    requires i < |lhs|
    ensures Outcome(lhs, rhs, MergeFrom(lhs, rhs, i, |rhs|, acc), MergeCorrectedFrom(lhs, rhs, i, |rhs|, acc))
  {
    UnreadIsFresh(lhs, rhs, i, |rhs|, acc);
    RightExhaustedResults(lhs, rhs, i, acc);
    RightExhaustedOutcome(lhs, rhs, i, acc);
  }

  /** With the right side exhausted and the left entries fresh, what the two merges return. */
  lemma RightExhaustedResults(lhs: PossibleDimensions, rhs: PossibleDimensions, i: nat, acc: PossibleDimensions)
    requires UniqueNames(lhs) && i < |lhs|
    requires forall p :: i <= p < |lhs| ==> lhs[p].name !in Names(acc)
    ensures MergeCorrectedFrom(lhs, rhs, i, |rhs|, acc) == Success(acc + lhs[i..])
    ensures MergeFrom(lhs, rhs, i, |rhs|, acc) == Success(acc + [lhs[i]])
  {
    var rest := lhs[i..];
    forall k | 0 <= k < |rest|
      ensures rest[k].name !in Names(acc)
    {
      assert rest[k] == lhs[i + k];
    }
    InsertAllFresh(acc, rest);
    assert Insert(acc, lhs[i]) == acc + [lhs[i]];
  }

  /** Appending the unread left entries to the state gives a sorted union, of which the as-written result is a prefix. */
  lemma RightExhaustedOutcome(lhs: PossibleDimensions, rhs: PossibleDimensions, i: nat, acc: PossibleDimensions)
    requires Sorted(lhs)
    requires Progress(lhs, rhs, i, |rhs|, acc)
    requires i < |lhs|
    ensures Outcome(lhs, rhs, Success(acc + [lhs[i]]), Success(acc + lhs[i..]))
  {
    var rest := lhs[i..];
    var out := acc + rest;
    assert acc + [lhs[i]] == out[..|acc| + 1];
    SortedConcat(acc, rest);
    forall k | 0 <= k < |out|
      ensures out[k] in lhs || out[k] in rhs
    {
      if k < |acc| {
        assert acc[k] in lhs[..i] || acc[k] in rhs[..|rhs|];
      } else {
        assert out[k] == lhs[i + k - |acc|];
      }
    }
    forall p | 0 <= p < |lhs|
      ensures lhs[p] in out
    {
      if p >= i {
        assert out[|acc| + p - i] == lhs[p];
      }
    }
  }

  /**
   For canonical catalogs that agree on every shared name, the corrected
   merge succeeds and returns their union in catalog order: sorted, holding
   every entry of both inputs and nothing else.
   */
  lemma CorrectedIsSortedUnion(lhs: PossibleDimensions, rhs: PossibleDimensions)
    requires Canonical(lhs) && Canonical(rhs) && Compatible(lhs, rhs)
    ensures CombineCorrected(lhs, rhs).Success?
    ensures Sorted(CombineCorrected(lhs, rhs).value)
    ensures forall k :: 0 <= k < |CombineCorrected(lhs, rhs).value| ==>
              CombineCorrected(lhs, rhs).value[k] in lhs || CombineCorrected(lhs, rhs).value[k] in rhs
    ensures forall p :: 0 <= p < |lhs| ==> lhs[p] in CombineCorrected(lhs, rhs).value
    ensures forall q :: 0 <= q < |rhs| ==> rhs[q] in CombineCorrected(lhs, rhs).value
  {
    CanonicalFrom(lhs, rhs, 0, 0, []);
  }

  /**
   On the same inputs the source's merge never fails and returns a prefix of
   that sorted union: it is in catalog order, but may stop short of the end.
   */
  lemma AsWrittenIsSortedPrefix(lhs: PossibleDimensions, rhs: PossibleDimensions)
    requires Canonical(lhs) && Canonical(rhs) && Compatible(lhs, rhs)
    ensures Combine(lhs, rhs).Success? && CombineCorrected(lhs, rhs).Success?
    ensures Sorted(Combine(lhs, rhs).value)
    ensures |Combine(lhs, rhs).value| <= |CombineCorrected(lhs, rhs).value|
    ensures Combine(lhs, rhs).value == CombineCorrected(lhs, rhs).value[..|Combine(lhs, rhs).value|]
  {
    CanonicalFrom(lhs, rhs, 0, 0, []);
  }

  /**
   For canonical catalogs that agree on every shared name, the corrected
   merge does not depend on which catalog is given first.
   */
  lemma CorrectedCommutes(lhs: PossibleDimensions, rhs: PossibleDimensions)
    requires Canonical(lhs) && Canonical(rhs) && Compatible(lhs, rhs)
    ensures CombineCorrected(lhs, rhs) == CombineCorrected(rhs, lhs)
  {
    CorrectedIsSortedUnion(lhs, rhs);
    assert Compatible(rhs, lhs);
    CorrectedIsSortedUnion(rhs, lhs);
    SortedSameEntries(CombineCorrected(lhs, rhs).value, CombineCorrected(rhs, lhs).value);
  }
}

=== FILE: checked_merge.dfy ===
/**
 The merge of src/temp.rs detects a conflict only when the two clashing
 entries are the current entries of their sides at the same turn. Catalogs
 in catalog order place a name by its number of values, so when the two
 sides give one name different numbers of values the two entries need not
 meet: once an entry that sorts between them is taken first, the clash goes
 unnoticed, and the second definition either replaces the first where it
 stands or is lost with the dropped left tail.
 `CombineChecked` looks for a clash over all pairs of entries first and only
 then merges.
 */
module CheckedMerge {
  import opened Wrappers
  import opened LexOrder
  import opened Dimensions
  import opened CombineDimensions
  import opened CanonicalMerge

  /** Whether some entry of `rhs` has the name of `d` but other values. */
  function ClashesWith(d: Dimension, rhs: PossibleDimensions): (b: bool)
    ensures b <==> exists q :: 0 <= q < |rhs| && rhs[q].name == d.name && rhs[q].values != d.values
  {
    if |rhs| == 0 then false
    else
      assert forall q :: 1 <= q < |rhs| ==> rhs[q] == rhs[1..][q - 1];
      (rhs[0].name == d.name && rhs[0].values != d.values) || ClashesWith(d, rhs[1..])
  }

  /** The first name of `lhs` that `rhs` binds to other values, if there is one. */
  function FindConflict(lhs: PossibleDimensions, rhs: PossibleDimensions): (r: Option<string>)
    ensures r.Some? ==> Disagree(r.value, lhs, rhs)
    ensures r.None? <==> Compatible(lhs, rhs)
  {
    if |lhs| == 0 then None
    else if ClashesWith(lhs[0], rhs) then Some(lhs[0].name)
    else
      assert forall p :: 1 <= p < |lhs| ==> lhs[p] == lhs[1..][p - 1];
      FindConflict(lhs[1..], rhs)
  }

  /** The merge with every shared name checked first. */
  function CombineChecked(lhs: PossibleDimensions, rhs: PossibleDimensions): (res: Result<PossibleDimensions, Conflict>)
    ensures res.Failure? ==> |lhs| > 0 && |rhs| > 0
  {
    match FindConflict(lhs, rhs)
    case Some(n) => Failure(Conflict(n))
    case None => CombineCorrected(lhs, rhs)
  }

  /**
   The checked merge fails exactly when some name is bound to different
   values on the two sides, and then names such a name.
   */
  lemma CheckedFailsOnConflict(lhs: PossibleDimensions, rhs: PossibleDimensions)
    ensures CombineChecked(lhs, rhs).Failure? <==> !Compatible(lhs, rhs)
    ensures CombineChecked(lhs, rhs).Failure? ==> Disagree(CombineChecked(lhs, rhs).error.name, lhs, rhs)
  {
    if FindConflict(lhs, rhs).None? {
      CombineCorrectedGuarantees(lhs, rhs);
    }
  }

  /**
   On canonical catalogs that agree on every shared name, the checked merge
   returns the sorted union of the two catalogs.
   */
  lemma CheckedIsSortedUnion(lhs: PossibleDimensions, rhs: PossibleDimensions)
    requires Canonical(lhs) && Canonical(rhs) && Compatible(lhs, rhs)
    ensures CombineChecked(lhs, rhs).Success?
    ensures Sorted(CombineChecked(lhs, rhs).value)
    ensures forall k :: 0 <= k < |CombineChecked(lhs, rhs).value| ==>
      CombineChecked(lhs, rhs).value[k] in lhs || CombineChecked(lhs, rhs).value[k] in rhs
    ensures forall p :: 0 <= p < |lhs| ==> lhs[p] in CombineChecked(lhs, rhs).value
    ensures forall q :: 0 <= q < |rhs| ==> rhs[q] in CombineChecked(lhs, rhs).value
  {
    CorrectedIsSortedUnion(lhs, rhs);
  }

  // As in the merge examples, each example below is proved one turn or one
  // insert at a time, by small lemmas that keep every unfolding cheap.

  // Two canonical catalogs giving the name "x" one value on the left and two on the right.
  const X1 := Dimension("x", DimensionValues(["a"]))
  const Y1 := Dimension("y", DimensionValues(["a"]))
  const X2 := Dimension("x", DimensionValues(["a", "b"]))

  /**
   The source's merge, and the merge with the tail fixed, both accept these
   catalogs although they disagree on "x": the right side's definition of "x"
   overwrites the left one in place.
   */
  lemma UndetectedConflictExample()
    ensures Canonical([X1]) && Canonical([Y1, X2])
    ensures Disagree("x", [X1], [Y1, X2])
    ensures Combine([X1], [Y1, X2]) == Success([X2, Y1])
    ensures CombineCorrected([X1], [Y1, X2]) == Success([X2, Y1])
  {
    assert [X1][0].name == [Y1, X2][1].name;
    assert MergeFrom([X1], [Y1, X2], 1, 0, [X1]) == Success([X2, Y1])
        && MergeCorrectedFrom([X1], [Y1, X2], 1, 0, [X1]) == Success([X2, Y1]) by {
      assert [Y1, X2][0..] == [Y1, X2];
      OverwriteInPlace();
    }
    UndetectedFirstTurn();
    ExampleIsCanonical();
  }

  /**
   With the sides swapped the clash on "x" again goes unnoticed, and the
   left definition of "x" is lost with the left tail.
   */
  lemma DroppedConflictExample()
    ensures Canonical([Y1, X2]) && Canonical([X1])
    ensures Disagree("x", [Y1, X2], [X1])
    ensures Combine([Y1, X2], [X1]) == Success([X1, Y1])
  {
    assert [Y1, X2][1].name == [X1][0].name;
    assert MergeFrom([Y1, X2], [X1], 0, 0, []) == MergeFrom([Y1, X2], [X1], 0, 1, [X1]) by {
      assert Decide(Y1, X1) == TakeRight by { assert !LexLe("y", "x"); }
      assert Insert([], X1) == [X1] by { assert Names([]) == []; }
    }
    assert Insert([X1], Y1) == [X1, Y1] by { assert Names([X1]) == ["x"]; }
    ExampleIsCanonical();
  }

  lemma ExampleIsCanonical()
    ensures Canonical([X1]) && Canonical([Y1, X2])
  {
    assert KeyBefore(Y1, X2) by { assert Y1.values.Len() == 1 && X2.values.Len() == 2; }
    assert Y1.name != X2.name by { assert Y1.name[0] != X2.name[0]; }
  }

  /** The first turn takes the left "x", which exhausts the left side. */
  lemma UndetectedFirstTurn()
    ensures MergeFrom([X1], [Y1, X2], 0, 0, []) == MergeFrom([X1], [Y1, X2], 1, 0, [X1])
    ensures MergeCorrectedFrom([X1], [Y1, X2], 0, 0, []) == MergeCorrectedFrom([X1], [Y1, X2], 1, 0, [X1])
  {
    assert Decide(X1, Y1) == TakeLeft by { assert LexLe("x", "y"); }
    assert Insert([], X1) == [X1] by { assert Names([]) == []; }
  }

  /** Inserting the right side appends "y", then overwrites "x" where it stands. */
  lemma OverwriteInPlace()
    ensures InsertAll([X1], [Y1, X2]) == [X2, Y1]
  {
    AppendY();
    ReplaceX();
  }

  lemma AppendY()
    ensures InsertAll([X1], [Y1, X2]) == InsertAll([X1, Y1], [X2])
  {
    assert Insert([X1], Y1) == [X1, Y1];
    assert [Y1, X2][1..] == [X2];
  }

  lemma ReplaceX()
    ensures InsertAll([X1, Y1], [X2]) == [X2, Y1]
  {
    InsertReplaces([X1, Y1], X2, 0);
    assert [X1, Y1][0 := X2] == [X2, Y1];
    assert [X2][1..] == [];
  }

  /** The checked merge reports the same catalogs as a conflict on "x". */
  lemma CheckedConflictExample()
    ensures CombineChecked([X1], [Y1, X2]) == Failure(Conflict("x"))
  {
    assert ClashesWith(X1, [Y1, X2]) by {
      assert [Y1, X2][1].name == X1.name && [Y1, X2][1].values != X1.values;
    }
  }
}

=== FILE: combine.dfy ===
/**
 Merging two catalogs of possible dimensions, `combine_dimensions` in
 src/temp.rs. Both catalogs are walked once, side by side, as in the merge
 step of merge sort; the order is "fewer values first, then the smaller
 name". An entry present on both sides with the same values is emitted once;
 the same name with different values is a conflict, where the source panics
 and the model returns `Failure(Conflict(name))`.

 The source's arm for "the right side is exhausted" inserts the current left
 entry and then loops over the right iterator, which is already empty, so the
 left entries after the current one are never emitted. `Combine` keeps that
 behaviour; `CombineCorrected` inserts the remaining left entries, and the two are
 related below.
 */
module CombineDimensions {
  import opened Wrappers
  import opened LexOrder
  import opened Dimensions

  /** The dimension whose two definitions disagree. */
  datatype Conflict = Conflict(name: string)

  /** What one turn of the loop does when both sides have a current entry. */
  datatype Step = TakeBoth | TakeLeft | TakeRight | Clash

  /** The catalog order, strict: fewer values first, then the smaller name. */
  predicate KeyBefore(a: Dimension, b: Dimension)
  {
    a.values.Len() < b.values.Len() || (a.values.Len() == b.values.Len() && LexLess(a.name, b.name))
  }

  /**
   The decision for two current entries `l` (left) and `r` (right): the same
   entry is taken once, the same name with other values clashes, and
   otherwise the entry that comes first in the catalog order is taken.
   */
  function Decide(l: Dimension, r: Dimension): (s: Step)
    ensures s == Clash <==> l.name == r.name && l.values != r.values
    ensures s == TakeBoth <==> l == r
    ensures l.name != r.name ==> (s == TakeLeft <==> KeyBefore(l, r))
    ensures l.name != r.name ==> (s == TakeRight <==> KeyBefore(r, l))
  {
    if l.name == r.name then
      if l.values == r.values then TakeBoth else Clash
    else
      LexLessTrichotomy(l.name, r.name);
      if l.values.Len() == r.values.Len() then
        if LexLe(l.name, r.name) then TakeLeft else TakeRight
      else if l.values.Len() < r.values.Len() then TakeLeft
      else TakeRight
  }

  /**
   The loop of `combine_dimensions`, as written, from the state where
   `lhs[i..]` and `rhs[j..]` are still to be read and `acc` has been built.
   Like the map it fills, the result never repeats a name.
   */
  function MergeFrom(lhs: PossibleDimensions, rhs: PossibleDimensions, i: nat, j: nat, acc: PossibleDimensions)
    : (res: Result<PossibleDimensions, Conflict>)
    requires i <= |lhs| && j <= |rhs|
    ensures res.Success? && UniqueNames(acc) ==> UniqueNames(res.value)
    ensures res.Failure? ==> i < |lhs| && j < |rhs|
    decreases |lhs| - i + |rhs| - j
  {
    if i == |lhs| && j == |rhs| then Success(acc)
    else if i == |lhs| then Success(InsertAll(acc, rhs[j..]))
    else if j == |rhs| then Success(Insert(acc, lhs[i]))
    else match Decide(lhs[i], rhs[j])
      case Clash => Failure(Conflict(lhs[i].name))
      case TakeBoth => MergeFrom(lhs, rhs, i + 1, j + 1, Insert(acc, lhs[i]))
      case TakeLeft => MergeFrom(lhs, rhs, i + 1, j, Insert(acc, lhs[i]))
      case TakeRight => MergeFrom(lhs, rhs, i, j + 1, Insert(acc, rhs[j]))
  }

  /** The loop with the exhausted-right arm inserting all remaining left entries. */
  function MergeCorrectedFrom(lhs: PossibleDimensions, rhs: PossibleDimensions, i: nat, j: nat, acc: PossibleDimensions)
    : (res: Result<PossibleDimensions, Conflict>)
    requires i <= |lhs| && j <= |rhs|
    ensures res.Success? && UniqueNames(acc) ==> UniqueNames(res.value)
    ensures res.Failure? ==> i < |lhs| && j < |rhs|
    decreases |lhs| - i + |rhs| - j
  {
    if i == |lhs| && j == |rhs| then Success(acc)
    else if i == |lhs| then Success(InsertAll(acc, rhs[j..]))
    else if j == |rhs| then Success(InsertAll(acc, lhs[i..]))
    else match Decide(lhs[i], rhs[j])
      case Clash => Failure(Conflict(lhs[i].name))
      case TakeBoth => MergeCorrectedFrom(lhs, rhs, i + 1, j + 1, Insert(acc, lhs[i]))
      case TakeLeft => MergeCorrectedFrom(lhs, rhs, i + 1, j, Insert(acc, lhs[i]))
      case TakeRight => MergeCorrectedFrom(lhs, rhs, i, j + 1, Insert(acc, rhs[j]))
  }

  /**
   One turn of either loop that takes an entry `d`, the current entry of the
   side or sides it moves past: both loops go on from the same next state.
   */
  lemma Turn(lhs: PossibleDimensions, rhs: PossibleDimensions, i: nat, j: nat, acc: PossibleDimensions)
    returns (i': nat, j': nat, d: Dimension)
    requires i < |lhs| && j < |rhs| && Decide(lhs[i], rhs[j]) != Clash
    ensures i' == i || (i' == i + 1 && d == lhs[i])
    ensures j' == j || (j' == j + 1 && d == rhs[j])
    ensures Decide(lhs[i], rhs[j]) == TakeBoth ==> i' == i + 1 && j' == j + 1
    ensures Decide(lhs[i], rhs[j]) == TakeLeft ==> i' == i + 1 && j' == j
    ensures Decide(lhs[i], rhs[j]) == TakeRight ==> i' == i && j' == j + 1
    ensures MergeFrom(lhs, rhs, i, j, acc) == MergeFrom(lhs, rhs, i', j', Insert(acc, d))
    ensures MergeCorrectedFrom(lhs, rhs, i, j, acc) == MergeCorrectedFrom(lhs, rhs, i', j', Insert(acc, d))
  {
    match Decide(lhs[i], rhs[j])
    case TakeBoth => i', j', d := i + 1, j + 1, lhs[i];
    case TakeLeft => i', j', d := i + 1, j, lhs[i];
    case TakeRight => i', j', d := i, j + 1, rhs[j];
  }

  /** Every entry of `r` is an entry of `acc`, `lhs` or `rhs`. */
  ghost predicate FromInputs(r: PossibleDimensions, acc: PossibleDimensions, lhs: PossibleDimensions, rhs: PossibleDimensions)
  {
    forall k :: 0 <= k < |r| ==> r[k] in acc || r[k] in lhs || r[k] in rhs
  }

  /** `name` is bound to different values in `lhs` and in `rhs`. */
  ghost predicate Disagree(name: string, lhs: PossibleDimensions, rhs: PossibleDimensions)
  {
    exists p, q :: 0 <= p < |lhs| && 0 <= q < |rhs| && lhs[p].name == name == rhs[q].name
                   && lhs[p].values != rhs[q].values
  }

  /** A merge outcome invents nothing: a result holds input entries only, a failure names a real disagreement. */
  ghost predicate Sound(res: Result<PossibleDimensions, Conflict>, acc: PossibleDimensions,
                        lhs: PossibleDimensions, rhs: PossibleDimensions)
  {
    && (res.Success? ==> FromInputs(res.value, acc, lhs, rhs))
    && (res.Failure? ==> Disagree(res.error.name, lhs, rhs))
  }

  /** Both loops, from any state, have sound outcomes. */
  lemma {:induction false} MergeSound(lhs: PossibleDimensions, rhs: PossibleDimensions, i: nat, j: nat, acc: PossibleDimensions)
    requires i <= |lhs| && j <= |rhs|
    ensures Sound(MergeFrom(lhs, rhs, i, j, acc), acc, lhs, rhs)
    ensures Sound(MergeCorrectedFrom(lhs, rhs, i, j, acc), acc, lhs, rhs)
    decreases |lhs| - i + |rhs| - j
  {
    if i == |lhs| || j == |rhs| {
      ExhaustedSound(lhs, rhs, i, j, acc);
    } else if Decide(lhs[i], rhs[j]) == Clash {
      assert MergeFrom(lhs, rhs, i, j, acc) == MergeCorrectedFrom(lhs, rhs, i, j, acc) == Failure(Conflict(lhs[i].name));
      assert lhs[i].name == rhs[j].name && lhs[i].values != rhs[j].values;
    } else {
      var i', j', d := Turn(lhs, rhs, i, j, acc);
      MergeSound(lhs, rhs, i', j', Insert(acc, d));
      SoundAfterInsert(MergeFrom(lhs, rhs, i', j', Insert(acc, d)), acc, d, lhs, rhs);
      SoundAfterInsert(MergeCorrectedFrom(lhs, rhs, i', j', Insert(acc, d)), acc, d, lhs, rhs);
    }
  }

  lemma ExhaustedSound(lhs: PossibleDimensions, rhs: PossibleDimensions, i: nat, j: nat, acc: PossibleDimensions)
    requires i <= |lhs| && j <= |rhs| && (i == |lhs| || j == |rhs|)
    ensures Sound(MergeFrom(lhs, rhs, i, j, acc), acc, lhs, rhs)
    ensures Sound(MergeCorrectedFrom(lhs, rhs, i, j, acc), acc, lhs, rhs)
  {
    var ds := if i == |lhs| then rhs[j..] else lhs[i..];
    assert forall k :: 0 <= k < |ds| ==> ds[k] in lhs || ds[k] in rhs;
    InsertAllFromInputs(acc, ds, lhs, rhs);
    if i < |lhs| {
      InsertFromInputs(acc, lhs[i], lhs, rhs);
    }
  }

  lemma InsertAllFromInputs(acc: PossibleDimensions, ds: seq<Dimension>, lhs: PossibleDimensions, rhs: PossibleDimensions)
    requires forall k :: 0 <= k < |ds| ==> ds[k] in lhs || ds[k] in rhs
    ensures FromInputs(InsertAll(acc, ds), acc, lhs, rhs)
  {
    var r := InsertAll(acc, ds);
    forall k | 0 <= k < |r|
      ensures r[k] in acc || r[k] in lhs || r[k] in rhs
    {
      if r[k] !in acc {
        var m :| 0 <= m < |ds| && ds[m] == r[k];
      }
    }
  }

  lemma InsertFromInputs(acc: PossibleDimensions, d: Dimension, lhs: PossibleDimensions, rhs: PossibleDimensions)
    requires d in lhs || d in rhs
    ensures FromInputs(Insert(acc, d), acc, lhs, rhs)
  {
  }

  lemma SoundAfterInsert(res: Result<PossibleDimensions, Conflict>, acc: PossibleDimensions, d: Dimension,
                         lhs: PossibleDimensions, rhs: PossibleDimensions)
    requires d in lhs || d in rhs
    requires Sound(res, Insert(acc, d), lhs, rhs)
    ensures Sound(res, acc, lhs, rhs)
  {
    if res.Success? {
      forall k | 0 <= k < |res.value|
        ensures res.value[k] in acc || res.value[k] in lhs || res.value[k] in rhs
      {
        if res.value[k] in Insert(acc, d) {
          var m :| 0 <= m < |Insert(acc, d)| && Insert(acc, d)[m] == res.value[k];
        }
      }
    }
  }

  /** `r` has every name of `acc` and the name of every entry `ds[q]` with `q >= j`. */
  ghost predicate KeepsNames(r: PossibleDimensions, acc: PossibleDimensions, ds: seq<Dimension>, j: nat)
  {
    && (forall n :: n in Names(acc) ==> n in Names(r))
    && (forall q :: j <= q < |ds| ==> ds[q].name in Names(r))
  }

  /**
   Both loops keep every name already emitted and every name still to be read
   on the right; the corrected loop also keeps every name still to be read on
   the left.
   */
  lemma {:induction false} MergeKeepsNames(lhs: PossibleDimensions, rhs: PossibleDimensions, i: nat, j: nat, acc: PossibleDimensions)
    requires i <= |lhs| && j <= |rhs|
    ensures MergeFrom(lhs, rhs, i, j, acc).Success? ==> KeepsNames(MergeFrom(lhs, rhs, i, j, acc).value, acc, rhs, j)
    ensures MergeCorrectedFrom(lhs, rhs, i, j, acc).Success? ==>
      KeepsNames(MergeCorrectedFrom(lhs, rhs, i, j, acc).value, acc, rhs, j)
      && KeepsNames(MergeCorrectedFrom(lhs, rhs, i, j, acc).value, acc, lhs, i)
    decreases |lhs| - i + |rhs| - j
  {
    if i == |lhs| || j == |rhs| {
      ExhaustedKeepsNames(lhs, rhs, i, j, acc);
    } else if Decide(lhs[i], rhs[j]) != Clash {
      var i', j', d := Turn(lhs, rhs, i, j, acc);
      MergeKeepsNames(lhs, rhs, i', j', Insert(acc, d));
      KeepsAfterInsert(MergeFrom(lhs, rhs, i', j', Insert(acc, d)), acc, d, rhs, j, j');
      KeepsAfterInsert(MergeCorrectedFrom(lhs, rhs, i', j', Insert(acc, d)), acc, d, rhs, j, j');
      KeepsAfterInsert(MergeCorrectedFrom(lhs, rhs, i', j', Insert(acc, d)), acc, d, lhs, i, i');
    }
  }

  lemma ExhaustedKeepsNames(lhs: PossibleDimensions, rhs: PossibleDimensions, i: nat, j: nat, acc: PossibleDimensions)
    requires i <= |lhs| && j <= |rhs| && (i == |lhs| || j == |rhs|)
    ensures MergeFrom(lhs, rhs, i, j, acc).Success? ==> KeepsNames(MergeFrom(lhs, rhs, i, j, acc).value, acc, rhs, j)
    ensures MergeCorrectedFrom(lhs, rhs, i, j, acc).Success? ==>
      KeepsNames(MergeCorrectedFrom(lhs, rhs, i, j, acc).value, acc, rhs, j)
      && KeepsNames(MergeCorrectedFrom(lhs, rhs, i, j, acc).value, acc, lhs, i)
  {
    if i == |lhs| {
      InsertAllKeepsNames(acc, rhs, j);
      InsertAllKeepsNames(acc, lhs, i);
    } else {
      InsertAllKeepsNames(acc, lhs, i);
      InsertKeepsNames(acc, lhs[i]);
    }
  }

  lemma InsertAllKeepsNames(acc: PossibleDimensions, ds: seq<Dimension>, j: nat)
    requires j <= |ds|
    ensures KeepsNames(InsertAll(acc, ds[j..]), acc, ds, j)
  {
    forall q | j <= q < |ds|
      ensures ds[q].name in Names(InsertAll(acc, ds[j..]))
    {
      assert ds[j..][q - j] == ds[q];
    }
  }

  lemma KeepsAfterInsert(res: Result<PossibleDimensions, Conflict>, acc: PossibleDimensions, d: Dimension,
                         ds: seq<Dimension>, j: nat, j': nat)
    requires j' == j || (j' == j + 1 && j < |ds| && d == ds[j])
    requires res.Success? ==> KeepsNames(res.value, Insert(acc, d), ds, j')
    ensures res.Success? ==> KeepsNames(res.value, acc, ds, j)
  {
    InsertKeepsNames(acc, d);
  }

  /** `combine_dimensions(lhs, rhs)` as written. */
  function Combine(lhs: PossibleDimensions, rhs: PossibleDimensions): (res: Result<PossibleDimensions, Conflict>)
    ensures res.Failure? ==> |lhs| > 0 && |rhs| > 0
  {
    MergeFrom(lhs, rhs, 0, 0, [])
  }

  /** The merge the source evidently intends: no left entry is lost. */
  function CombineCorrected(lhs: PossibleDimensions, rhs: PossibleDimensions): (res: Result<PossibleDimensions, Conflict>)
    ensures res.Failure? ==> |lhs| > 0 && |rhs| > 0
  {
    MergeCorrectedFrom(lhs, rhs, 0, 0, [])
  }

  /**
   What the source's merge guarantees: a result has unique names, holds input
   entries only and keeps every right name; a failure names a dimension the
   two catalogs bind to different values.
   */
  lemma CombineGuarantees(lhs: PossibleDimensions, rhs: PossibleDimensions)
    ensures Combine(lhs, rhs).Success? ==> UniqueNames(Combine(lhs, rhs).value)
    ensures Combine(lhs, rhs).Success? ==> forall k :: 0 <= k < |Combine(lhs, rhs).value| ==>
      Combine(lhs, rhs).value[k] in lhs || Combine(lhs, rhs).value[k] in rhs
    ensures Combine(lhs, rhs).Success? ==> forall q :: 0 <= q < |rhs| ==> rhs[q].name in Names(Combine(lhs, rhs).value)
    ensures Combine(lhs, rhs).Failure? ==> Disagree(Combine(lhs, rhs).error.name, lhs, rhs)
  {
    MergeSound(lhs, rhs, 0, 0, []);
    MergeKeepsNames(lhs, rhs, 0, 0, []);
  }

  /** The corrected merge guarantees the same, and keeps every left name too. */
  lemma CombineCorrectedGuarantees(lhs: PossibleDimensions, rhs: PossibleDimensions)
    ensures CombineCorrected(lhs, rhs).Success? ==> UniqueNames(CombineCorrected(lhs, rhs).value)
    ensures CombineCorrected(lhs, rhs).Success? ==> forall k :: 0 <= k < |CombineCorrected(lhs, rhs).value| ==>
      CombineCorrected(lhs, rhs).value[k] in lhs || CombineCorrected(lhs, rhs).value[k] in rhs
    ensures CombineCorrected(lhs, rhs).Success? ==>
      forall p :: 0 <= p < |lhs| ==> lhs[p].name in Names(CombineCorrected(lhs, rhs).value)
    ensures CombineCorrected(lhs, rhs).Success? ==>
      forall q :: 0 <= q < |rhs| ==> rhs[q].name in Names(CombineCorrected(lhs, rhs).value)
    ensures CombineCorrected(lhs, rhs).Failure? ==> Disagree(CombineCorrected(lhs, rhs).error.name, lhs, rhs)
  {
    MergeSound(lhs, rhs, 0, 0, []);
    MergeKeepsNames(lhs, rhs, 0, 0, []);
  }
}

=== FILE: combine_properties.dfy ===
/**
 Properties of `combine_dimensions` (src/temp.rs): its test, the cases the
 merge loop distinguishes, the left entries it loses when the right side runs
 out first, and, for catalogs already in catalog order, the sorted union the
 corrected merge computes.
 */
module CombineProperties {
  import opened Wrappers
  import opened LexOrder
  import opened Dimensions
  import opened CombineDimensions

  // ---------------------------------------------------------------------------
  // Merging a catalog with itself
  // ---------------------------------------------------------------------------

  lemma {:induction false} MergeWithItselfFrom(c: PossibleDimensions, i: nat)
    requires UniqueNames(c)
    requires i <= |c|
    ensures MergeFrom(c, c, i, i, c[..i]) == Success(c)
    decreases |c| - i
  {
    if i < |c| {
      SelfTurn(c, i);
      MergeWithItselfFrom(c, i + 1);
    } else {
      assert c[..i] == c;
    }
  }

  /** Each turn takes the common head from both sides and extends the rebuilt prefix by it. */
  lemma SelfTurn(c: PossibleDimensions, i: nat)
    requires UniqueNames(c)
    requires i < |c|
    ensures MergeFrom(c, c, i, i, c[..i]) == MergeFrom(c, c, i + 1, i + 1, c[..i + 1])
  {
    assert Decide(c[i], c[i]) == TakeBoth;
    ExtendPrefix(c, i);
  }

  /** Inserting the next entry of a catalog with unique names after its prefix extends the prefix. */
  lemma ExtendPrefix(c: PossibleDimensions, i: nat)
    requires UniqueNames(c)
    requires i < |c|
    ensures Insert(c[..i], c[i]) == c[..i + 1]
  {
    assert c[i].name !in Names(c[..i]);
    assert c[..i] + [c[i]] == c[..i + 1];
  }

  /** Merging a catalog with an identical copy gives it back unchanged, with no conflict. */
  lemma CombineWithItself(c: PossibleDimensions)
    requires UniqueNames(c)
    ensures Combine(c, c) == Success(c)
  {
    MergeWithItselfFrom(c, 0);
    assert c[..0] == [];
  }

  /** `test_same_single_dimension`: two catalogs built by one `add_dimension` each. */
  lemma SameSingleDimension()
    ensures var a := Insert([], Dimension("1", DimensionValues(["a", "b"])));
            Combine(a, a).Success? && |Combine(a, a).value| == 1 && Combine(a, a).value == a
  {
    var a := Insert([], Dimension("1", DimensionValues(["a", "b"])));
    assert a == [Dimension("1", DimensionValues(["a", "b"]))];
    CombineWithItself(a);
  }

  // ---------------------------------------------------------------------------
  // The cases of the loop, on small catalogs
  // ---------------------------------------------------------------------------

  /** The same name bound to different values is a conflict naming that dimension. */
  lemma ConflictExample()
    ensures Combine([Dimension("X", DimensionValues(["a", "b"]))],
                    [Dimension("X", DimensionValues(["a", "c"]))])
         == Failure(Conflict("X"))
  {
    assert Decide(Dimension("X", DimensionValues(["a", "b"])), Dimension("X", DimensionValues(["a", "c"]))) == Clash;
  }

  /** The entry with fewer values comes first, whichever side it is on. */
  lemma CardinalityFirstExample()
    ensures Combine([Dimension("X", DimensionValues(["a", "b"]))],
                    [Dimension("Y", DimensionValues(["a"]))])
         == Success([Dimension("Y", DimensionValues(["a"])), Dimension("X", DimensionValues(["a", "b"]))])
  {
    var x := Dimension("X", DimensionValues(["a", "b"]));
    var y := Dimension("Y", DimensionValues(["a"]));
    assert MergeFrom([x], [y], 0, 0, []) == MergeFrom([x], [y], 0, 1, [y]) by {
      assert Decide(x, y) == TakeRight;
      assert Insert([], y) == [y] by { assert Names([]) == []; }
    }
    assert MergeFrom([x], [y], 0, 1, [y]) == Success([y, x]) by {
      assert Insert([y], x) == [y, x] by { assert Names([y]) == ["Y"]; }
    }
  }

  // The examples from here on are proved one merge turn at a time. Unfolding
  // several turns of `MergeFrom`, each with its `Insert`, inside one proof is
  // expensive for the solver, so every turn (and every multi-entry insert) is a
  // small lemma of its own, and the example lemma chains them.

  /** A shared entry is emitted once, followed by the rest of the longer side. */
  lemma SharedThenTailExample()
    ensures Combine([Dimension("A", DimensionValues(["a"]))],
                    [Dimension("A", DimensionValues(["a"])), Dimension("B", DimensionValues(["a", "b"]))])
         == Success([Dimension("A", DimensionValues(["a"])), Dimension("B", DimensionValues(["a", "b"]))])
  {
    SharedTurn();
    SharedTail();
  }

  const SharedA := Dimension("A", DimensionValues(["a"]))
  const TailB := Dimension("B", DimensionValues(["a", "b"]))

  /** The first turn takes the shared entry from both sides. */
  lemma SharedTurn()
    ensures MergeFrom([SharedA], [SharedA, TailB], 0, 0, []) == MergeFrom([SharedA], [SharedA, TailB], 1, 1, [SharedA])
  {
    assert Decide(SharedA, SharedA) == TakeBoth;
    assert Insert([], SharedA) == [SharedA] by { assert Names([]) == []; }
  }

  /** The left side is then exhausted and the rest of the right side is inserted. */
  lemma SharedTail()
    ensures MergeFrom([SharedA], [SharedA, TailB], 1, 1, [SharedA]) == Success([SharedA, TailB])
  {
    assert [SharedA, TailB][1..] == [TailB];
    InsertOneNew([SharedA], TailB);
    assert [SharedA] + [TailB] == [SharedA, TailB];
  }

  /** With an empty left catalog the result is the right catalog. */
  lemma CombineEmptyLeft(rhs: PossibleDimensions)
    requires UniqueNames(rhs)
    ensures Combine([], rhs) == Success(rhs)
  {
    InsertAllRebuilds(rhs, 0);
    assert rhs[..0] == [] && rhs[0..] == rhs;
  }

  /**
   With an empty right catalog only the first left entry survives: the arm
   for an exhausted right side inserts the current left entry, then loops
   over the right iterator, which has nothing left.
   */
  lemma CombineEmptyRight(lhs: PossibleDimensions)
    ensures Combine(lhs, []) == Success(if |lhs| == 0 then [] else [lhs[0]])
  {
    if |lhs| > 0 {
      assert Names([]) == [];
      assert Insert([], lhs[0]) == [lhs[0]];
    }
  }

  /**
   Once the left catalog is exhausted, the right entries still to be read are
   appended in their order, when their names are new to the output.
   */
  lemma LeftExhaustedAppendsRest(lhs: PossibleDimensions, rhs: PossibleDimensions, j: nat, acc: PossibleDimensions)
    requires j <= |rhs| && UniqueNames(rhs)
    requires forall q :: j <= q < |rhs| ==> rhs[q].name !in Names(acc)
    ensures MergeFrom(lhs, rhs, |lhs|, j, acc) == Success(acc + rhs[j..])
  {
    forall k | 0 <= k < |rhs[j..]|
      ensures rhs[j..][k].name !in Names(acc)
    {
      assert rhs[j..][k] == rhs[j + k];
    }
    assert UniqueNames(rhs[j..]) by {
      forall p, q | 0 <= p < q < |rhs[j..]|
        ensures rhs[j..][p].name != rhs[j..][q].name
      {
        assert rhs[j..][p] == rhs[j + p] && rhs[j..][q] == rhs[j + q];
      }
    }
    InsertAllFresh(acc, rhs[j..]);
    assert j == |rhs| ==> acc + rhs[j..] == acc;
  }

  /**
   Once the right catalog is exhausted, only the current left entry is
   emitted: the output is `acc` with that entry inserted (appended when its
   name is new, replacing the entry of that name where it stands otherwise),
   and no later left entry whose name is new to `acc` appears in it.
   */
  lemma RightExhaustedEmitsHeadOnly(lhs: PossibleDimensions, rhs: PossibleDimensions, i: nat, acc: PossibleDimensions)
    requires i < |lhs| && UniqueNames(lhs)
    ensures MergeFrom(lhs, rhs, i, |rhs|, acc) == Success(Insert(acc, lhs[i]))
    ensures lhs[i].name !in Names(acc) ==> MergeFrom(lhs, rhs, i, |rhs|, acc) == Success(acc + [lhs[i]])
    ensures forall p :: i < p < |lhs| && lhs[p].name !in Names(acc) ==>
      lhs[p].name !in Names(MergeFrom(lhs, rhs, i, |rhs|, acc).value)
  {
  }

  // Four one-value dimensions, named in catalog order a < b < c < d.
  const DimA := Dimension("a", DimensionValues(["x"]))
  const DimB := Dimension("b", DimensionValues(["x"]))
  const DimC := Dimension("c", DimensionValues(["x"]))
  const DimD := Dimension("d", DimensionValues(["x"]))

  /** The first turn on `[a, c, d]` and `[b]` takes `a`. */
  lemma FirstTurn()
    ensures MergeFrom([DimA, DimC, DimD], [DimB], 0, 0, []) == MergeFrom([DimA, DimC, DimD], [DimB], 1, 0, [DimA])
    ensures MergeCorrectedFrom([DimA, DimC, DimD], [DimB], 0, 0, [])
         == MergeCorrectedFrom([DimA, DimC, DimD], [DimB], 1, 0, [DimA])
  {
    assert Decide(DimA, DimB) == TakeLeft by { assert LexLe("a", "b"); }
    assert Insert([], DimA) == [DimA] by { assert Names([]) == []; }
  }

  /** The second turn takes `b`, which exhausts the right side. */
  lemma SecondTurn()
    ensures MergeFrom([DimA, DimC, DimD], [DimB], 1, 0, [DimA]) == MergeFrom([DimA, DimC, DimD], [DimB], 1, 1, [DimA, DimB])
    ensures MergeCorrectedFrom([DimA, DimC, DimD], [DimB], 1, 0, [DimA])
         == MergeCorrectedFrom([DimA, DimC, DimD], [DimB], 1, 1, [DimA, DimB])
  {
    assert Decide(DimC, DimB) == TakeRight by { assert !LexLe("c", "b"); }
    assert Insert([DimA], DimB) == [DimA, DimB];
  }

  /** The first two turns on `[a, c, d]` and `[b]`: take `a`, then `b`. */
  lemma FirstTwoTurns()
    ensures MergeFrom([DimA, DimC, DimD], [DimB], 0, 0, []) == MergeFrom([DimA, DimC, DimD], [DimB], 1, 1, [DimA, DimB])
    ensures MergeCorrectedFrom([DimA, DimC, DimD], [DimB], 0, 0, [])
         == MergeCorrectedFrom([DimA, DimC, DimD], [DimB], 1, 1, [DimA, DimB])
  {
    FirstTurn();
    SecondTurn();
  }

  /** When the right side runs out first, the left entries after the current one are lost. */
  lemma LeftTailDroppedExample()
    ensures Combine([DimA, DimC, DimD], [DimB]) == Success([DimA, DimB, DimC])
  {
    FirstTwoTurns();
    assert Insert([DimA, DimB], DimC) == [DimA, DimB, DimC];
  }

  /** On the same catalogs the corrected merge keeps every entry. */
  lemma LeftTailKeptExample()
    ensures CombineCorrected([DimA, DimC, DimD], [DimB]) == Success([DimA, DimB, DimC, DimD])
  {
    FirstTwoTurns();
    assert [DimA, DimC, DimD][1..] == [DimC, DimD];
    KeptTail();
  }

  lemma KeptTail()
    ensures InsertAll([DimA, DimB], [DimC, DimD]) == [DimA, DimB, DimC, DimD]
  {
    assert InsertAll([DimA, DimB], [DimC, DimD]) == [DimA, DimB] + [DimC, DimD] by {
      assert Names([DimA, DimB]) == ["a", "b"];
      InsertAllFresh([DimA, DimB], [DimC, DimD]);
    }
    JoinPairs(DimA, DimB, DimC, DimD);
  }

  lemma JoinPairs<T>(a: T, b: T, c: T, d: T)
    ensures [a, b] + [c, d] == [a, b, c, d]
  {
  }

  /**
   Swapping the two catalogs above changes the result: with `[b]` on the left
   it is the left side that runs out first, and every entry survives.
   */
  lemma AsWrittenNotCommutative()
    ensures Combine([DimB], [DimA, DimC, DimD]) == Success([DimA, DimB, DimC, DimD])
    ensures Combine([DimB], [DimA, DimC, DimD]) != Combine([DimA, DimC, DimD], [DimB])
  {
    SwappedTurns();
    SwappedTail();
    LeftTailDroppedExample();
  }

  /** With `[b]` on the left the first turn takes `a` from the right. */
  lemma SwappedFirstTurn()
    ensures MergeFrom([DimB], [DimA, DimC, DimD], 0, 0, []) == MergeFrom([DimB], [DimA, DimC, DimD], 0, 1, [DimA])
  {
    assert Decide(DimB, DimA) == TakeRight by { assert LexLe("a", "b"); }
    assert Insert([], DimA) == [DimA] by { assert Names([]) == []; }
  }

  /** The second turn takes `b`, which exhausts the left side. */
  lemma SwappedSecondTurn()
    ensures MergeFrom([DimB], [DimA, DimC, DimD], 0, 1, [DimA]) == MergeFrom([DimB], [DimA, DimC, DimD], 1, 1, [DimA, DimB])
  {
    assert Decide(DimB, DimC) == TakeLeft by { assert LexLe("b", "c"); }
    assert Insert([DimA], DimB) == [DimA, DimB];
  }

  lemma SwappedTurns()
    ensures MergeFrom([DimB], [DimA, DimC, DimD], 0, 0, []) == MergeFrom([DimB], [DimA, DimC, DimD], 1, 1, [DimA, DimB])
  {
    SwappedFirstTurn();
    SwappedSecondTurn();
  }

  /** The exhausted left side lets the rest of the right side in. */
  lemma SwappedTail()
    ensures MergeFrom([DimB], [DimA, DimC, DimD], 1, 1, [DimA, DimB]) == Success([DimA, DimB, DimC, DimD])
  {
    assert [DimA, DimC, DimD][1..] == [DimC, DimD];
    KeptTail();
  }

  // ---------------------------------------------------------------------------
  // What the exhausted-right arm loses, in general
  // ---------------------------------------------------------------------------

  /**
   `f` is `w` with a suffix `lhs[k..]` (for some `k` at or after `i`) inserted
   into it, and both fail alike. An inserted entry whose name `w` already has
   replaces that entry where it stands; only new names go to the end.
   */
  ghost predicate ExtendsByLeftSuffix(w: Result<PossibleDimensions, Conflict>, f: Result<PossibleDimensions, Conflict>,
                                      lhs: PossibleDimensions, i: nat)
  {
    && (w.Failure? <==> f.Failure?)
    && (w.Failure? ==> w == f)
    && (w.Success? ==> exists k :: i <= k <= |lhs| && f.value == InsertAll(w.value, lhs[k..]))
  }

  /**
   From any state, the corrected merge fails exactly when the merge as written
   fails, with the same conflict; when both succeed, the corrected result is
   the result as written with a suffix of the left catalog inserted into it.
   */
  lemma {:induction false} CorrectedExtendsFrom(lhs: PossibleDimensions, rhs: PossibleDimensions, i: nat, j: nat, acc: PossibleDimensions)
    requires i <= |lhs| && j <= |rhs|
    ensures ExtendsByLeftSuffix(MergeFrom(lhs, rhs, i, j, acc), MergeCorrectedFrom(lhs, rhs, i, j, acc), lhs, i)
    decreases |lhs| - i + |rhs| - j
  {
    if i == |lhs| {
      LeftExhaustedAgrees(lhs, rhs, j, acc);
    } else if j == |rhs| {
      RightExhaustedLosesTail(lhs, rhs, i, acc);
    } else if Decide(lhs[i], rhs[j]) == Clash {
      ClashAgrees(lhs, rhs, i, j, acc);
    } else {
      var i', j', d := Turn(lhs, rhs, i, j, acc);
      CorrectedExtendsFrom(lhs, rhs, i', j', Insert(acc, d));
      WidenSuffix(MergeFrom(lhs, rhs, i', j', Insert(acc, d)), MergeCorrectedFrom(lhs, rhs, i', j', Insert(acc, d)), lhs, i, i');
    }
  }

  /** A clash fails both loops alike. */
  lemma ClashAgrees(lhs: PossibleDimensions, rhs: PossibleDimensions, i: nat, j: nat, acc: PossibleDimensions)
    requires i < |lhs| && j < |rhs| && Decide(lhs[i], rhs[j]) == Clash
    ensures ExtendsByLeftSuffix(MergeFrom(lhs, rhs, i, j, acc), MergeCorrectedFrom(lhs, rhs, i, j, acc), lhs, i)
  {
    assert MergeFrom(lhs, rhs, i, j, acc) == Failure(Conflict(lhs[i].name));
    assert MergeCorrectedFrom(lhs, rhs, i, j, acc) == Failure(Conflict(lhs[i].name));
  }

  /** A suffix starting at or after `i'` starts at or after any `i <= i'`. */
  lemma WidenSuffix(w: Result<PossibleDimensions, Conflict>, f: Result<PossibleDimensions, Conflict>,
                    lhs: PossibleDimensions, i: nat, i': nat)
    requires i <= i'
    requires ExtendsByLeftSuffix(w, f, lhs, i')
    ensures ExtendsByLeftSuffix(w, f, lhs, i)
  {
    if w.Success? {
      var k :| i' <= k <= |lhs| && f.value == InsertAll(w.value, lhs[k..]);
      assert i <= k;
    }
  }

  lemma LeftExhaustedAgrees(lhs: PossibleDimensions, rhs: PossibleDimensions, j: nat, acc: PossibleDimensions)
    requires j <= |rhs|
    ensures ExtendsByLeftSuffix(MergeFrom(lhs, rhs, |lhs|, j, acc), MergeCorrectedFrom(lhs, rhs, |lhs|, j, acc), lhs, |lhs|)
  {
    var out := if j == |rhs| then acc else InsertAll(acc, rhs[j..]);
    assert MergeFrom(lhs, rhs, |lhs|, j, acc) == Success(out);
    assert MergeCorrectedFrom(lhs, rhs, |lhs|, j, acc) == Success(out);
    assert InsertAll(out, lhs[|lhs|..]) == out;
  }

  lemma RightExhaustedLosesTail(lhs: PossibleDimensions, rhs: PossibleDimensions, i: nat, acc: PossibleDimensions)
    requires i < |lhs|
    ensures ExtendsByLeftSuffix(MergeFrom(lhs, rhs, i, |rhs|, acc), MergeCorrectedFrom(lhs, rhs, i, |rhs|, acc), lhs, i)
  {
    assert MergeFrom(lhs, rhs, i, |rhs|, acc) == Success(Insert(acc, lhs[i]));
    assert MergeCorrectedFrom(lhs, rhs, i, |rhs|, acc) == Success(InsertAll(acc, lhs[i..]));
    assert lhs[i..][1..] == lhs[i + 1..];
    assert InsertAll(acc, lhs[i..]) == InsertAll(Insert(acc, lhs[i]), lhs[i + 1..]);
  }

  /**
   The corrected merge fails exactly when the source's merge fails, with the
   same conflict; otherwise it is the source's result with the lost suffix of
   the left catalog inserted into it, so an entry whose name is already present
   is replaced in place rather than appended.
   */
  lemma CorrectedExtendsAsWritten(lhs: PossibleDimensions, rhs: PossibleDimensions)
    ensures Combine(lhs, rhs).Failure? <==> CombineCorrected(lhs, rhs).Failure?
    ensures Combine(lhs, rhs).Failure? ==> Combine(lhs, rhs) == CombineCorrected(lhs, rhs)
    ensures Combine(lhs, rhs).Success? ==>
      exists k :: 0 <= k <= |lhs| && CombineCorrected(lhs, rhs).value == InsertAll(Combine(lhs, rhs).value, lhs[k..])
  {
    CorrectedExtendsFrom(lhs, rhs, 0, 0, []);
  }
}

=== FILE: dimensions.dfy ===
/**
 The catalog of possible dimensions: an insertion-ordered map from a
 dimension's name to the list of values that dimension can take. The
 source keeps it in an `IndexMap`; here it is the sequence of its entries in
 iteration order, with the map's guarantee that no two entries share a name
 stated as `UniqueNames`.
 */
module Dimensions {
  import opened Wrappers

  /** The values a dimension can take, in order. */
  datatype DimensionValues = DimensionValues(items: seq<string>)
  {
    /** Cardinality of the dimension. */
    function Len(): nat
    {
      |items|
    }
  }

  /** One entry of the catalog: a name and its values. */
  datatype Dimension = Dimension(name: string, values: DimensionValues)

  /** All possible dimensions, in insertion order. */
  type PossibleDimensions = seq<Dimension>

  /** The names of a catalog, in order. */
  function Names(c: PossibleDimensions): (ns: seq<string>)
    ensures |ns| == |c|
    ensures forall k :: 0 <= k < |c| ==> ns[k] == c[k].name
  {
    if |c| == 0 then [] else [c[0].name] + Names(c[1..])
  }

  /** The map invariant: no name occurs twice. */
  ghost predicate UniqueNames(c: PossibleDimensions)
  {
    forall p, q :: 0 <= p < q < |c| ==> c[p].name != c[q].name
  }

  /** Position of the entry called `name`, if there is one. */
  function IndexOf(c: PossibleDimensions, name: string): (r: Option<nat>)
    ensures r.Some? ==> r.value < |c| && c[r.value].name == name
    ensures r.Some? ==> forall k :: 0 <= k < r.value ==> c[k].name != name
    ensures r.None? <==> name !in Names(c)
  {
    if |c| == 0 then None
    else if c[0].name == name then Some(0)
    else match IndexOf(c[1..], name)
      case None => None
      case Some(k) => Some(k + 1)
  }

  /** Lookup by name. */
  function Get(c: PossibleDimensions, name: string): Option<DimensionValues>
  {
    match IndexOf(c, name)
    case None => None
    case Some(k) => Some(c[k].values)
  }

  /**
   `IndexMap::insert`: a name already present keeps its position and gets the
   new values; a new name is appended at the end.
   */
  function Insert(c: PossibleDimensions, d: Dimension): (r: PossibleDimensions)
    ensures d.name !in Names(c) ==> r == c + [d]
    ensures Names(r) == if d.name in Names(c) then Names(c) else Names(c) + [d.name]
    ensures UniqueNames(c) ==> UniqueNames(r)
    ensures d in r
    ensures forall k :: 0 <= k < |r| ==> r[k] == d || r[k] in c
  {
    match IndexOf(c, d.name)
    case None => c + [d]
    case Some(k) => c[k := d]
  }

  /** Inserting a name that is already present replaces its entry where it stands. */
  lemma InsertReplaces(c: PossibleDimensions, d: Dimension, k: nat)
    requires UniqueNames(c)
    requires k < |c| && c[k].name == d.name
    ensures Insert(c, d) == c[k := d]
  {
    var m := IndexOf(c, d.name);
    assert m.Some? by { assert c[k].name in Names(c); }
  }

  /** An insertion keeps every name and adds the inserted one. */
  lemma InsertKeepsNames(c: PossibleDimensions, d: Dimension)
    ensures forall n :: n in Names(c) ==> n in Names(Insert(c, d))
    ensures d.name in Names(Insert(c, d))
  {
    if d.name !in Names(c) {
      assert Names(Insert(c, d))[|c|] == d.name;
    }
  }

  /** After an insertion, looking the inserted name up gives the new values. */
  lemma GetInserted(c: PossibleDimensions, d: Dimension)
    ensures Get(Insert(c, d), d.name) == Some(d.values)
  {
    if IndexOf(c, d.name).None? {
      IndexOfAppend(c, d, d.name);
    } else {
      IndexOfSameNames(c, Insert(c, d), d.name);
    }
  }

  /** After an insertion, every other name looks up as before. */
  lemma GetOther(c: PossibleDimensions, d: Dimension, n: string)
    requires n != d.name
    ensures Get(Insert(c, d), n) == Get(c, n)
  {
    if IndexOf(c, d.name).None? {
      IndexOfAppend(c, d, n);
    } else {
      IndexOfSameNames(c, Insert(c, d), n);
    }
  }

  /** Lookup in `c + [d]` finds the old entries first, then `d`. */
  lemma {:induction false} IndexOfAppend(c: PossibleDimensions, d: Dimension, n: string)
    ensures IndexOf(c + [d], n) == (if n in Names(c) then IndexOf(c, n) else if n == d.name then Some(|c|) else None)
    decreases |c|
  {
    if |c| > 0 {
      assert (c + [d])[1..] == c[1..] + [d];
      IndexOfAppend(c[1..], d, n);
    }
  }

  /** Lookup depends only on the names, position by position. */
  lemma {:induction false} IndexOfSameNames(c: PossibleDimensions, c': PossibleDimensions, n: string)
    requires Names(c) == Names(c')
    ensures IndexOf(c, n) == IndexOf(c', n)
    decreases |c|
  {
    if |c| > 0 {
      assert Names(c[1..]) == Names(c)[1..] == Names(c')[1..] == Names(c'[1..]);
      IndexOfSameNames(c[1..], c'[1..], n);
    }
  }

  /** Inserting entries one after another, as the source's `for` loops do. */
  function InsertAll(c: PossibleDimensions, ds: seq<Dimension>): (r: PossibleDimensions)
    ensures UniqueNames(c) ==> UniqueNames(r)
    ensures forall k :: 0 <= k < |r| ==> r[k] in c || r[k] in ds
    ensures forall n :: n in Names(c) ==> n in Names(r)
    ensures forall k :: 0 <= k < |ds| ==> ds[k].name in Names(r)
    decreases |ds|
  {
    if |ds| == 0 then c else InsertAll(Insert(c, ds[0]), ds[1..])
  }

  /** Inserting a single entry with a new name appends it. */
  lemma InsertOneNew(c: PossibleDimensions, d: Dimension)
    requires d.name !in Names(c)
    ensures InsertAll(c, [d]) == c + [d]
  {
    assert [d][1..] == [];
  }

  /** Building a catalog by inserting its own entries into an empty one gives it back. */
  lemma {:induction false} InsertAllRebuilds(c: PossibleDimensions, k: nat)
    requires UniqueNames(c)
    requires k <= |c|
    ensures InsertAll(c[..k], c[k..]) == c
    decreases |c| - k
  {
    if k < |c| {
      assert c[k].name !in Names(c[..k]);
      assert c[..k] + [c[k]] == c[..k + 1];
      InsertAllRebuilds(c, k + 1);
    } else {
      assert c[..k] == c;
    }
  }

  /** Inserting entries whose names are new and pairwise distinct simply appends them. */
  lemma {:induction false} InsertAllFresh(c: PossibleDimensions, ds: seq<Dimension>)
    requires UniqueNames(ds)
    requires forall k :: 0 <= k < |ds| ==> ds[k].name !in Names(c)
    ensures InsertAll(c, ds) == c + ds
    decreases |ds|
  {
    if |ds| > 0 {
      FreshTail(c, ds);
      InsertAllFresh(c + [ds[0]], ds[1..]);
      ShiftHead(c, ds);
    }
  }

  /** Moving the head of `ds` onto the end of `c` leaves the concatenation unchanged. */
  lemma ShiftHead<T>(c: seq<T>, ds: seq<T>)
    requires |ds| > 0
    ensures (c + [ds[0]]) + ds[1..] == c + ds
  {
  }

  lemma FreshTail(c: PossibleDimensions, ds: seq<Dimension>)
    requires |ds| > 0
    requires UniqueNames(ds)
    requires forall k :: 0 <= k < |ds| ==> ds[k].name !in Names(c)
    ensures InsertAll(c, ds) == InsertAll(c + [ds[0]], ds[1..])
    ensures UniqueNames(ds[1..])
    ensures forall k :: 0 <= k < |ds[1..]| ==> ds[1..][k].name !in Names(c + [ds[0]])
  {
    InsertFreshHead(c, ds);
    FreshAfterHead(c, ds);
  }

  lemma InsertFreshHead(c: PossibleDimensions, ds: seq<Dimension>)
    requires |ds| > 0 && ds[0].name !in Names(c)
    ensures InsertAll(c, ds) == InsertAll(c + [ds[0]], ds[1..])
  {
  }

  lemma FreshAfterHead(c: PossibleDimensions, ds: seq<Dimension>)
    requires |ds| > 0
    requires UniqueNames(ds)
    requires forall k :: 0 <= k < |ds| ==> ds[k].name !in Names(c)
    ensures forall k :: 0 <= k < |ds[1..]| ==> ds[1..][k].name !in Names(c + [ds[0]])
  {
    NamesAppend(c, ds[0]);
    forall k | 0 <= k < |ds| - 1
      ensures ds[1..][k].name !in Names(c) + [ds[0].name]
    {
      assert ds[1..][k] == ds[k + 1];
      assert ds[k + 1].name != ds[0].name;
    }
  }

  lemma NamesAppend(c: PossibleDimensions, d: Dimension)
    ensures Names(c + [d]) == Names(c) + [d.name]
  {
  }
}

=== FILE: lex_order.dfy ===
/**
 The order Rust's `<=` gives on `String`: lexicographic, character by
 character, with a proper prefix before each of its extensions. Rust compares
 the UTF-8 bytes; for valid UTF-8 that order coincides with the order of the
 code points, which is Dafny's order on `char`.
 */
module LexOrder {

  /** `a <= b` on strings, one character at a time. */
  predicate LexLe(a: string, b: string)
    decreases |a|
  {
    |a| == 0 || (|b| > 0 && (a[0] < b[0] || (a[0] == b[0] && LexLe(a[1..], b[1..]))))
  }

  /** `a < b` on strings. */
  predicate LexLess(a: string, b: string)
  {
    LexLe(a, b) && a != b
  }

  /** The textbook definition: `a` is a prefix of `b`, or the two agree up to
      some position where `a` has the smaller character. */
  ghost predicate LexLeSpec(a: string, b: string)
  {
    (|a| <= |b| && a == b[..|a|])
    || exists k :: 0 <= k < |a| && k < |b| && a[..k] == b[..k] && a[k] < b[k]
  }

  /** The character-by-character recursion and the textbook definition agree. */
  lemma {:induction false} LexLeMeansSpec(a: string, b: string)
    ensures LexLe(a, b) <==> LexLeSpec(a, b)
    decreases |a|
  {
    if |a| == 0 {
      assert a == b[..0];
    } else if |b| == 0 {
      assert !LexLeSpec(a, b);
    } else if a[0] < b[0] {
      assert a[..0] == b[..0];
      assert LexLeSpec(a, b);
    } else if a[0] > b[0] {
      if |a| <= |b| {
        assert a[0] != b[..|a|][0];
      }
      forall k | 0 <= k < |a| && k < |b| && a[..k] == b[..k]
        ensures a[k] >= b[k]
      {
      }
    } else {
      LexLeMeansSpec(a[1..], b[1..]);
      SpecFromTails(a, b);
      SpecToTails(a, b);
    }
  }

  /** With equal first characters, the textbook order on the tails carries over to the strings. */
  lemma SpecFromTails(a: string, b: string)
    requires |a| > 0 && |b| > 0 && a[0] == b[0]
    ensures LexLeSpec(a[1..], b[1..]) ==> LexLeSpec(a, b)
  {
    if |a[1..]| <= |b[1..]| && a[1..] == b[1..][..|a[1..]|] {
      assert a == [a[0]] + a[1..];
      assert b[..|a|] == [b[0]] + b[1..][..|a[1..]|];
    } else if LexLeSpec(a[1..], b[1..]) {
      var k :| 0 <= k < |a[1..]| && k < |b[1..]| && a[1..][..k] == b[1..][..k] && a[1..][k] < b[1..][k];
      assert a[..k + 1] == [a[0]] + a[1..][..k];
      assert b[..k + 1] == [b[0]] + b[1..][..k];
      assert a[k + 1] < b[k + 1];
    }
  }

  /** With equal first characters, the textbook order on the strings carries over to the tails. */
  lemma SpecToTails(a: string, b: string)
    requires |a| > 0 && |b| > 0 && a[0] == b[0]
    ensures LexLeSpec(a, b) ==> LexLeSpec(a[1..], b[1..])
  {
    if |a| <= |b| && a == b[..|a|] {
      assert a[1..] == b[1..][..|a[1..]|];
    } else if LexLeSpec(a, b) {
      var k :| 0 <= k < |a| && k < |b| && a[..k] == b[..k] && a[k] < b[k];
      assert k != 0;
      assert a[1..][..k - 1] == a[..k][1..];
      assert b[1..][..k - 1] == b[..k][1..];
      assert a[1..][k - 1] < b[1..][k - 1];
    }
  }

  lemma {:induction false} LexLeReflexive(a: string)
    ensures LexLe(a, a)
    decreases |a|
  {
    if |a| > 0 {
      LexLeReflexive(a[1..]);
    }
  }

  lemma {:induction false} LexLeAntisymmetric(a: string, b: string)
    requires LexLe(a, b) && LexLe(b, a)
    ensures a == b
    decreases |a|
  {
    if |a| > 0 {
      LexLeAntisymmetric(a[1..], b[1..]);
      assert a == [a[0]] + a[1..];
      assert b == [b[0]] + b[1..];
    }
  }

  lemma {:induction false} LexLeTransitive(a: string, b: string, c: string)
    requires LexLe(a, b) && LexLe(b, c)
    ensures LexLe(a, c)
    decreases |a|
  {
    if |a| > 0 && a[0] == b[0] && b[0] == c[0] {
      LexLeTransitive(a[1..], b[1..], c[1..]);
    }
  }

  lemma {:induction false} LexLeTotal(a: string, b: string)
    ensures LexLe(a, b) || LexLe(b, a)
    decreases |a|
  {
    if |a| > 0 && |b| > 0 && a[0] == b[0] {
      LexLeTotal(a[1..], b[1..]);
    }
  }

  /** `LexLess` is a strict total order: exactly one of `a < b`, `a == b`, `b < a`. */
  lemma LexLessTrichotomy(a: string, b: string)
    ensures LexLess(a, b) || a == b || LexLess(b, a)
    ensures !(LexLess(a, b) && LexLess(b, a))
  {
    LexLeTotal(a, b);
    if LexLe(a, b) && LexLe(b, a) {
      LexLeAntisymmetric(a, b);
    }
  }

  lemma LexLessTransitive(a: string, b: string, c: string)
    requires LexLess(a, b) && LexLess(b, c)
    ensures LexLess(a, c)
  {
    LexLeTransitive(a, b, c);
    if a == c {
      LexLeAntisymmetric(a, b);
    }
  }
}

=== FILE: run_lengths.dfy ===
/**
 Run-lengths (strides) of the flattened value buffer, `compute_run_lengths`
 in src/flags.rs. A dimension is either active (it varies) or collapsed; the
 run-length of an active dimension is the number of buffer slots to skip to
 move one step along it, and a collapsed dimension gets 0.

 Sizes are unbounded naturals (the source's `usize` product could overflow;
 that is not modelled). The source divides by the size of each active
 dimension, which panics when that size is 0: `ComputeRunLengths` returns
 `None` exactly then.
 */
module RunLengths {
  import opened Wrappers

  function Min(a: nat, b: nat): nat
  {
    if a <= b then a else b
  }

  /** The number of positions both inputs cover: `zip` stops at the shorter one. */
  function Width(flags: seq<bool>, sizes: seq<nat>): nat
  {
    Min(|flags|, |sizes|)
  }

  /** Product of the sizes, 1 for none (`reduce(|a, b| a * b).unwrap_or(1)`). */
  function Product(s: seq<nat>): (p: nat)
    ensures p == 0 <==> 0 in s
  {
    if |s| == 0 then 1
    else
      assert s == [s[0]] + s[1..];
      s[0] * Product(s[1..])
  }

  /** `dims`: an active dimension keeps its size, a collapsed one counts as 1. */
  function EffectiveSizes(flags: seq<bool>, sizes: seq<nat>): (dims: seq<nat>)
    ensures |dims| == Width(flags, sizes)
  {
    seq(Width(flags, sizes), k requires 0 <= k < Width(flags, sizes) => if flags[k] then sizes[k] else 1)
  }

  /** The caller's obligation: every active dimension in range has a size of at least 1. */
  ghost predicate ActiveSizesPositive(flags: seq<bool>, sizes: seq<nat>)
  {
    forall k :: 0 <= k < Width(flags, sizes) && flags[k] ==> sizes[k] >= 1
  }

  /**
   The loop over `flags.iter().zip(dims.iter())` starting from
   `current_size`: an active position gets `current_size / dim`, which becomes
   the new `current_size`; a collapsed one gets 0. `None` when some active
   position has a zero size, where the division panics.
   */
  function Walk(flags: seq<bool>, dims: seq<nat>, current: nat): (r: Option<seq<nat>>)
    requires |flags| == |dims|
    ensures r.Some? ==> |r.value| == |flags|
    ensures r.Some? ==> forall k :: 0 <= k < |flags| && !flags[k] ==> r.value[k] == 0
    ensures r.None? <==> exists k :: 0 <= k < |flags| && flags[k] && dims[k] == 0
    decreases |flags|
  {
    if |flags| == 0 then Some([])
    else if flags[0] then
      if dims[0] == 0 then None
      else
        var run := current / dims[0];
        match Walk(flags[1..], dims[1..], run)
        case None => None
        case Some(rest) => Some([run] + rest)
    else
      match Walk(flags[1..], dims[1..], current)
      case None => None
      case Some(rest) => Some([0] + rest)
  }

  /**
   `compute_run_lengths(flags, sizes)`: one run-length per position both
   inputs cover, 0 at every collapsed position, and a panic (`None`) exactly
   when an active position has size 0.
   */
  function ComputeRunLengths(flags: seq<bool>, sizes: seq<nat>): (r: Option<seq<nat>>)
    ensures r.Some? ==> |r.value| == Width(flags, sizes)
    ensures r.Some? ==> forall k :: 0 <= k < Width(flags, sizes) && !flags[k] ==> r.value[k] == 0
    ensures r.None? <==> exists k :: 0 <= k < Width(flags, sizes) && flags[k] && sizes[k] == 0
  {
    var dims := EffectiveSizes(flags, sizes);
    var r := Walk(flags[..|dims|], dims, Product(dims));
    assert r.None? <==> exists k :: 0 <= k < |dims| && flags[..|dims|][k] && dims[k] == 0;
    r
  }

  // ---------------------------------------------------------------------------
  // Reference definition: row-major strides over the active dimensions only.
  // ---------------------------------------------------------------------------

  /** Product of the sizes of the active positions. */
  function ActiveProduct(flags: seq<bool>, sizes: seq<nat>): nat
    requires |flags| == |sizes|
  {
    if |flags| == 0 then 1
    else if flags[0] then sizes[0] * ActiveProduct(flags[1..], sizes[1..])
    else ActiveProduct(flags[1..], sizes[1..])
  }

  /** The stride of each position: for an active one, the product of the
      sizes of all later active positions; 0 for a collapsed one. */
  function Strides(flags: seq<bool>, sizes: seq<nat>): (st: seq<nat>)
    ensures |st| == Width(flags, sizes)
  {
    var n := Width(flags, sizes);
    seq(n, k requires 0 <= k < n =>
      if flags[k] then ActiveProduct(flags[k + 1..n], sizes[k + 1..n]) else 0)
  }

  lemma DivideProduct(a: nat, b: nat)
    requires a >= 1
    ensures (a * b) / a == b
  {
    var q, r := (a * b) / a, (a * b) % a;
    assert a * b == a * q + r && 0 <= r < a;
    var d := b - q;
    assert a * d == r;
  }

  /** Walking from `current_size == Product(dims)` never panics when every
      size is at least 1, and gives each active position the product of the
      sizes after it. */
  lemma {:induction false} WalkFromTotal(flags: seq<bool>, dims: seq<nat>)
    requires |flags| == |dims|
    requires forall k :: 0 <= k < |dims| ==> dims[k] >= 1 && (!flags[k] ==> dims[k] == 1)
    ensures Walk(flags, dims, Product(dims))
         == Some(seq(|flags|, k requires 0 <= k < |flags| => if flags[k] then Product(dims[k + 1..]) else 0))
    decreases |flags|
  {
    var expected := seq(|flags|, k requires 0 <= k < |flags| => if flags[k] then Product(dims[k + 1..]) else 0);
    if |flags| > 0 {
      var next := Product(dims[1..]);
      if flags[0] {
        DivideProduct(dims[0], next);
      } else {
        assert Product(dims) == next;
      }
      WalkFromTotal(flags[1..], dims[1..]);
      var rest := seq(|flags| - 1, k requires 0 <= k < |flags| - 1 => if flags[1..][k] then Product(dims[1..][k + 1..]) else 0);
      assert Walk(flags, dims, Product(dims)) == Some([expected[0]] + rest);
      forall k | 0 <= k < |flags| - 1
        ensures rest[k] == expected[k + 1]
      {
        assert dims[1..][k + 1..] == dims[k + 2..];
      }
      assert [expected[0]] + rest == expected;
    } else {
      assert expected == [];
    }
  }

  /** The effective sizes from position `i` on multiply to the product of the
      active sizes from `i` on. */
  lemma {:induction false} EffectiveProduct(flags: seq<bool>, sizes: seq<nat>, i: nat)
    requires i <= Width(flags, sizes)
    ensures Product(EffectiveSizes(flags, sizes)[i..])
         == ActiveProduct(flags[i..Width(flags, sizes)], sizes[i..Width(flags, sizes)])
    decreases Width(flags, sizes) - i
  {
    var n := Width(flags, sizes);
    var dims := EffectiveSizes(flags, sizes);
    if i < n {
      EffectiveProduct(flags, sizes, i + 1);
      assert dims[i..][1..] == dims[i + 1..];
      assert flags[i..n][1..] == flags[i + 1..n];
      assert sizes[i..n][1..] == sizes[i + 1..n];
    }
  }

  /** The total the walk starts from is 0 exactly when some active size is 0,
      that is, exactly when the walk would divide by zero. */
  lemma ZeroTotalIsPanic(flags: seq<bool>, sizes: seq<nat>)
    ensures Product(EffectiveSizes(flags, sizes)) == 0
        <==> exists k :: 0 <= k < Width(flags, sizes) && flags[k] && sizes[k] == 0
  {
    var dims := EffectiveSizes(flags, sizes);
    if 0 in dims {
      var k :| 0 <= k < |dims| && dims[k] == 0;
      assert flags[k] && sizes[k] == 0;
    } else {
      forall k | 0 <= k < Width(flags, sizes) && flags[k]
        ensures sizes[k] != 0
      {
        assert dims[k] in dims;
      }
    }
  }

  /**
   The main property: with every active size at least 1, the run-lengths are
   the row-major strides over the active dimensions, with 0 placeholders at
   the collapsed ones.
   */
  lemma RunLengthsAreStrides(flags: seq<bool>, sizes: seq<nat>)
    requires ActiveSizesPositive(flags, sizes)
    ensures ComputeRunLengths(flags, sizes) == Some(Strides(flags, sizes))
  {
    var n := Width(flags, sizes);
    var dims := EffectiveSizes(flags, sizes);
    var fs := flags[..n];
    WalkFromTotal(fs, dims);
    var w := seq(n, k requires 0 <= k < n => if fs[k] then Product(dims[k + 1..]) else 0);
    assert ComputeRunLengths(flags, sizes) == Some(w);
    var st := Strides(flags, sizes);
    forall k | 0 <= k < n
      ensures w[k] == st[k]
    {
      if flags[k] {
        EffectiveProduct(flags, sizes, k + 1);
      }
    }
    assert w == st;
  }

  /** Collapsed positions contribute nothing to the product. */
  lemma {:induction false} SkipCollapsed(flags: seq<bool>, sizes: seq<nat>, m: nat)
    requires |flags| == |sizes|
    requires m <= |flags|
    requires forall i :: 0 <= i < m ==> !flags[i]
    ensures ActiveProduct(flags, sizes) == ActiveProduct(flags[m..], sizes[m..])
    decreases m
  {
    if m > 0 {
      SkipCollapsed(flags[1..], sizes[1..], m - 1);
      assert flags[1..][m - 1..] == flags[m..];
      assert sizes[1..][m - 1..] == sizes[m..];
    }
  }

  /** No active dimension: every position gets 0, and there is nothing to divide by. */
  lemma NoActiveDimensions(flags: seq<bool>, sizes: seq<nat>)
    requires forall k :: 0 <= k < Width(flags, sizes) ==> !flags[k]
    ensures ComputeRunLengths(flags, sizes) == Some(seq(Width(flags, sizes), k => 0))
  {
    RunLengthsAreStrides(flags, sizes);
    assert Strides(flags, sizes) == seq(Width(flags, sizes), k => 0);
  }

  /** Empty inputs give an empty result; the product of no sizes is 1. */
  lemma EmptyInputs()
    ensures ComputeRunLengths([], []) == Some([])
  {
    NoActiveDimensions([], []);
  }

  /** The last active position has run-length 1. */
  lemma {:induction false} LastActiveIsOne(flags: seq<bool>, sizes: seq<nat>, k: nat)
    requires ActiveSizesPositive(flags, sizes)
    requires k < Width(flags, sizes) && flags[k]
    requires forall m :: k < m < Width(flags, sizes) ==> !flags[m]
    ensures ComputeRunLengths(flags, sizes).Some?
    ensures ComputeRunLengths(flags, sizes).value[k] == 1
  {
    var n := Width(flags, sizes);
    RunLengthsAreStrides(flags, sizes);
    SkipCollapsed(flags[k + 1..n], sizes[k + 1..n], n - (k + 1));
  }

  /**
   Row-major step: for consecutive active positions `j < k`, the stride at `j`
   is the stride at `k` times the size at `k`; `current_size` shrinks by
   exactly one active size at a time.
   */
  lemma {:induction false} ConsecutiveActive(flags: seq<bool>, sizes: seq<nat>, j: nat, k: nat)
    requires ActiveSizesPositive(flags, sizes)
    requires j < k < Width(flags, sizes) && flags[j] && flags[k]
    requires forall m :: j < m < k ==> !flags[m]
    ensures ComputeRunLengths(flags, sizes).Some?
    ensures ComputeRunLengths(flags, sizes).value[j] == ComputeRunLengths(flags, sizes).value[k] * sizes[k]
  {
    RunLengthsAreStrides(flags, sizes);
    StridesStep(flags, sizes, j, k);
  }

  /** The reference strides of consecutive active positions differ by the later one's size. */
  lemma StridesStep(flags: seq<bool>, sizes: seq<nat>, j: nat, k: nat)
    requires j < k < Width(flags, sizes) && flags[j] && flags[k]
    requires forall m :: j < m < k ==> !flags[m]
    ensures Strides(flags, sizes)[j] == Strides(flags, sizes)[k] * sizes[k]
  {
    var n := Width(flags, sizes);
    SkipGap(flags, sizes, j, k, n);
    ActiveHead(flags, sizes, k, n);
    var after := ActiveProduct(flags[k + 1..n], sizes[k + 1..n]);
    assert Strides(flags, sizes)[k] == after;
    assert sizes[k] * after == after * sizes[k];
  }

  /** The collapsed positions strictly between `j` and `k` drop out of the active product. */
  lemma SkipGap(flags: seq<bool>, sizes: seq<nat>, j: nat, k: nat, n: nat)
    requires j < k < n <= |flags| && n <= |sizes|
    requires forall m :: j < m < k ==> !flags[m]
    ensures ActiveProduct(flags[j + 1..n], sizes[j + 1..n]) == ActiveProduct(flags[k..n], sizes[k..n])
  {
    SkipCollapsed(flags[j + 1..n], sizes[j + 1..n], k - (j + 1));
    assert flags[j + 1..n][k - (j + 1)..] == flags[k..n];
    assert sizes[j + 1..n][k - (j + 1)..] == sizes[k..n];
  }

  /** An active position contributes its size to the active product from there on. */
  lemma ActiveHead(flags: seq<bool>, sizes: seq<nat>, k: nat, n: nat)
    requires k < n <= |flags| && n <= |sizes| && flags[k]
    ensures ActiveProduct(flags[k..n], sizes[k..n]) == sizes[k] * ActiveProduct(flags[k + 1..n], sizes[k + 1..n])
  {
    assert flags[k..n][1..] == flags[k + 1..n];
    assert sizes[k..n][1..] == sizes[k + 1..n];
  }

  /**
   Exactly one active position `k`: it gets 1 and every other position 0,
   whatever the sizes of the collapsed positions are.
   */
  lemma {:induction false} SingleActive(flags: seq<bool>, sizes: seq<nat>, k: nat)
    requires k < Width(flags, sizes) && flags[k] && sizes[k] >= 1
    requires forall m :: 0 <= m < Width(flags, sizes) && m != k ==> !flags[m]
    ensures ComputeRunLengths(flags, sizes)
         == Some(seq(Width(flags, sizes), m => if m == k then 1 else 0))
  {
    var n := Width(flags, sizes);
    RunLengthsAreStrides(flags, sizes);
    SkipCollapsed(flags[k + 1..n], sizes[k + 1..n], n - (k + 1));
    assert Strides(flags, sizes) == seq(n, m => if m == k then 1 else 0);
  }

  /**
   Two active positions `j < k` and any number of collapsed ones: the earlier
   active position strides over the whole later dimension, the later one by 1.
   */
  lemma TwoActive(flags: seq<bool>, sizes: seq<nat>, j: nat, k: nat)
    requires j < k < Width(flags, sizes) && flags[j] && flags[k]
    requires sizes[j] >= 1 && sizes[k] >= 1
    requires forall m :: 0 <= m < Width(flags, sizes) && m != j && m != k ==> !flags[m]
    ensures ComputeRunLengths(flags, sizes).Some?
    ensures ComputeRunLengths(flags, sizes).value[j] == sizes[k]
    ensures ComputeRunLengths(flags, sizes).value[k] == 1
  {
    LastActiveIsOne(flags, sizes, k);
    ConsecutiveActive(flags, sizes, j, k);
  }

  /** The sizes given at collapsed positions never matter, not even a zero. */
  lemma CollapsedSizesIgnored(flags: seq<bool>, sizes: seq<nat>, sizes': seq<nat>)
    requires |sizes| == |sizes'|
    requires forall k :: 0 <= k < Width(flags, sizes) && flags[k] ==> sizes[k] == sizes'[k]
    ensures ComputeRunLengths(flags, sizes) == ComputeRunLengths(flags, sizes')
  {
    assert EffectiveSizes(flags, sizes) == EffectiveSizes(flags, sizes');
  }

  /** The cases of `test_1d_run_lengths`, and a two-dimensional one. */
  lemma OneDimensionalCases()
    ensures ComputeRunLengths([true, false, false], [3, 2, 3]) == Some([1, 0, 0])
    ensures ComputeRunLengths([false, true, false], [3, 2, 3]) == Some([0, 1, 0])
    ensures ComputeRunLengths([false, false, true], [3, 2, 3]) == Some([0, 0, 1])
    ensures ComputeRunLengths([true, false, true], [3, 2, 4]) == Some([4, 0, 1])
  {
    SingleActive([true, false, false], [3, 2, 3], 0);
    assert seq(3, m => if m == 0 then 1 else 0) == [1, 0, 0];
    SingleActive([false, true, false], [3, 2, 3], 1);
    assert seq(3, m => if m == 1 then 1 else 0) == [0, 1, 0];
    SingleActive([false, false, true], [3, 2, 3], 2);
    assert seq(3, m => if m == 2 then 1 else 0) == [0, 0, 1];
    TwoActive([true, false, true], [3, 2, 4], 0, 2);
    var r := ComputeRunLengths([true, false, true], [3, 2, 4]).value;
    assert r[1] == 0;
    assert r == [4, 0, 1];
  }

  /**
   The same computation as a pair of loops, the shape of the source: first the
   product of the effective sizes, then one pass dividing it down. The first
   active position of size 0 stops the pass with `None`, where the source's
   division panics.
   */
  method ComputeRunLengthsLoop(flags: seq<bool>, sizes: seq<nat>) returns (r: Option<seq<nat>>)
    ensures r.None? <==> exists k :: 0 <= k < Width(flags, sizes) && flags[k] && sizes[k] == 0
    ensures r.Some? ==> r.value == Strides(flags, sizes)
  {
    var n := Width(flags, sizes);
    var dims := EffectiveSizes(flags, sizes);
    var current := MultiplyAll(dims);
    var runs := [];
    var i := 0;
    while i < n
      invariant 0 <= i <= n
      invariant |runs| == i
      invariant current == Product(dims[i..])
      invariant forall k :: 0 <= k < i ==> !(flags[k] && sizes[k] == 0)
      invariant forall k :: 0 <= k < i ==> runs[k] == if flags[k] then Product(dims[k + 1..]) else 0
    {
      ProductStep(dims, i);
      if flags[i] {
        if dims[i] == 0 {
          return None;
        }
        DivideProduct(dims[i], Product(dims[i + 1..]));
        var run := current / dims[i];
        runs := runs + [run];
        current := run;
      } else {
        runs := runs + [0];
      }
      i := i + 1;
    }
    SuffixProductsAreStrides(flags, sizes, runs);
    r := Some(runs);
  }

  /** The first loop of the source: the product of all sizes, 1 for none. */
  method MultiplyAll(dims: seq<nat>) returns (total: nat)
    ensures total == Product(dims)
  {
    total := 1;
    var i := 0;
    while i < |dims|
      invariant 0 <= i <= |dims|
      invariant total * Product(dims[i..]) == Product(dims)
    {
      AccumulateStep(dims, i, total);
      total := total * dims[i];
      i := i + 1;
    }
    assert dims[|dims|..] == [];
  }

  /** The product of a suffix is its first element times the product of the rest. */
  lemma ProductStep(dims: seq<nat>, i: nat)
    requires i < |dims|
    ensures Product(dims[i..]) == dims[i] * Product(dims[i + 1..])
  {
    assert dims[i..][1..] == dims[i + 1..];
  }

  /** One step of the first loop keeps `total * Product(dims[i..])` unchanged. */
  lemma AccumulateStep(dims: seq<nat>, i: nat, total: nat)
    requires i < |dims|
    ensures total * Product(dims[i..]) == (total * dims[i]) * Product(dims[i + 1..])
  {
    ProductStep(dims, i);
    var a, b := dims[i], Product(dims[i + 1..]);
    assert total * (a * b) == (total * a) * b;
  }

  /** Products of the effective sizes after each active position are the strides. */
  lemma SuffixProductsAreStrides(flags: seq<bool>, sizes: seq<nat>, runs: seq<nat>)
    requires |runs| == Width(flags, sizes)
    requires forall k :: 0 <= k < |runs| ==>
      runs[k] == if flags[k] then Product(EffectiveSizes(flags, sizes)[k + 1..]) else 0
    ensures runs == Strides(flags, sizes)
  {
    var n := Width(flags, sizes);
    forall k | 0 <= k < n && flags[k]
      ensures runs[k] == ActiveProduct(flags[k + 1..n], sizes[k + 1..n])
    {
      EffectiveProduct(flags, sizes, k + 1);
    }
  }
}

=== FILE: wrappers.dfy ===
/** Failure-carrying datatypes used in place of the source's panics. */
module Wrappers {

  /** A value that may be absent; `None` stands for an aborted computation. */
  datatype Option<+T> = None | Some(value: T)

  /** Either a value or an error describing why there is none. */
  datatype Result<+R, +E> = Success(value: R) | Failure(error: E)
}
